=== FILE: README.md ===
# pthy editing heuristics in Dafny

pthy is a prompt_toolkit front end for the Hy REPL. While the user edits a
form, it makes decisions from the lexer's tokens for the text before the
cursor:

- which tokens make up the sexp the cursor is in (`get_tokens_in_current_sexp`);
- how far to indent a new line;
- whether Enter submits the buffer or opens a new line;
- what text to hand to the Python completer, and which Hy names to offer;
- the order in which completions are shown.

This project models those decisions as pure Dafny functions and proves what
they compute. main.py, the older single-file REPL, is modelled beside the
package because its indenter and Enter handlers differ.

The Hy lexer, the compiler's registries and the Python completer are inputs.
A token is a kind, a value, a 1-based column and a character offset. The
registries are lists of names. "Does it lex?" and "does it validate?" are
booleans. The Python completer is a function from text to completions.

Modules:

- `Tokens` (tokens.dfy): the token kinds and tokens.
- `Sexp` (sexp.dfy): the extractor. `ScanFrom` is the reverse scan, written
  as a recursive reference definition. `GetTokensInCurrentSexp` is the loop
  as written, proved equal to it. `SexpStartSpec` describes the result
  without the scan, through the net bracket count `Tally` of the tokens
  after a position.
- `Text` (text.dfy): `isspace`, `rstrip`, `replace("-", "_")`, `".".join`
  and `split(".")`.
- `Buffers` (buffers.dfy): the buffer as `(text, cursor)`, the text
  insertions, and `at_the_end`.
- `Registry` (registry.dfy): the macro table, the standard library and the
  compile table.
- `Keybindings` (keybindings.dfy): pthy/keybindings.py.
- `Legacy` (legacy.dfy): main.py.
- `Ordering` (ordering.dfy): `compare_fun` and a stable sort.
- `Completer` (completer.dfy): pthy/completer.py.

Three facts about the extractor in pthy/utils.py shape the whole model:

- The stop test (pthy/utils.py:17) checks the square counter twice and never
  checks the curly one. An opener therefore stops the scan when the paren and
  square counters are zero, whatever the curly counter holds. `StepBack` is
  that rule as a reference definition, `StepCounts` is the loop body as
  written, and the two are proved equal. `ClosedCurlyStops` shows the
  consequence: a balanced `{ }` pair before the cursor stops the scan at its
  own `{`.
- When no opener stops the scan, the loop variable ends on the last reverse
  index and the slice drops the first token: the result is every token but
  the first (`SexpWithoutStop`).
- An empty token list leaves the loop variable unbound, and the final slice
  raises. A non-empty token list is therefore a precondition of the extractor
  and of everything built on it.

## Model

| member | source | states |
|---|---|---|
| `Sexp.StepBack` | pthy/utils.py:10-24 | Any opener stops the scan exactly when the paren and square counters are zero, whatever the curly counter holds. A closer adds one to its own counter. An opener that does not stop subtracts one from its own counter, even below zero. Other tokens change nothing. |
| `Sexp.StepCounts` | pthy/utils.py:10-24 | The loop body as written, with the duplicated square test, breaks exactly when an opener meets zero paren and square counters, and otherwise yields the counters plus the token's contribution: it is the same step as `Sexp.StepBack`. |
| `Sexp.CurrentSexp` | pthy/utils.py:4-25 | The result is a proper suffix of the tokens: it never holds the first token. |
| `Sexp.GetTokensInCurrentSexp` | pthy/utils.py:4-25 | The reverse loop with its break returns the same suffix as the reference scan. |
| `Sexp.SexpStartSpec` | pthy/utils.py:9-25 | The sexp starts right after the last opener whose following tokens net zero parens and zero square brackets, or at the second token when there is no such opener after the first. |
| `Sexp.SexpStartUnique` | pthy/utils.py:9-25 | Those two conditions determine the start: no other position satisfies them. |
| `Sexp.SexpAfterInnermostOpener` | pthy/utils.py:16-25 | When an opener stops the scan, the result is exactly the tokens after it, so the opener is never included. |
| `Sexp.SexpWithoutStop` | pthy/utils.py:9-25 | A scan that never stops returns all tokens except the first. |
| `Sexp.SexpEmptyAfterOpener` | pthy/utils.py:8-25 | When the last token before the cursor is an opener of any kind, the result is empty. |
| `Sexp.OpenerThenOne` | pthy/utils.py:9-25 | When the last two tokens are an opener and then a token that is no opener and changes neither the paren nor the square counter, the current sexp is that last token alone. |
| `Sexp.ClosedCurlyStops` | pthy/utils.py:14-18 | A closed `{ }` pair right before the cursor stops the scan at its `{`, leaving only the `}`, because the curly counter is never tested. |
| `Text.RStrip` | pthy/keybindings.py:61-63 | `rstrip` gives the longest prefix that does not end in whitespace: every dropped character is whitespace. |
| `Text.RStripUnique` | pthy/keybindings.py:61-63 | Those properties determine `rstrip`'s result. |
| `Text.RStripIdempotent` | pthy/keybindings.py:61-63 | Stripping twice is stripping once. |
| `Text.RStripIgnoresTrailingSpace` | pthy/keybindings.py:60-63 | Appending whitespace does not change the stripped text. |
| `Text.Spaces` | pthy/keybindings.py:34-35 | `range(spaces)` inserts `spaces` blanks, and none for a negative count. |
| `Text.ReplaceHyphens` | pthy/completer.py:32 | Every `-` becomes `_` and every other character is kept, so no `-` is left. |
| `Text.JoinSplitDot` | pthy/completer.py:29 | Splitting at dots and joining with dots gives the string back. |
| `Text.SplitJoinDot` | pthy/completer.py:29 | Dot-joining parts that hold no dot can be undone by splitting: the parts come back. |
| `Buffers.InsertText` | pthy/keybindings.py:33-35 | Inserted text lands at the cursor and the cursor moves past it. The text on both sides is untouched. |
| `Buffers.InsertTextTwice` | pthy/keybindings.py:33-35 | The character-by-character inserts add up to one insert of the whole string. |
| `Buffers.InsertNewline` | pthy/keybindings.py:31-35 | `auto_newline` puts exactly a newline and the indent's blanks at the cursor and leaves the cursor after them. Removing them gives the old text back. |
| `Buffers.NewlineColumn` | pthy/keybindings.py:31-35 | After the newline and the blanks, the cursor's column is the blank count, or 0 for a negative count. |
| `Buffers.LastLineLength` | pthy/keybindings.py:15-16 | The cursor column counts the characters after the last newline before the cursor. |
| `Buffers.AtTheEnd` | pthy/keybindings.py:42-44 | `at_the_end` holds exactly when every character after the cursor is whitespace other than a newline. That covers the empty case. |
| `Buffers.AtTheEndStripsOnlyAfter` | pthy/keybindings.py:60-63 | When `at_the_end` holds, stripping the whole text equals stripping the text before the cursor, and the stripped text ends at or before the cursor. |
| `Keybindings.ColumnIndent` | pthy/keybindings.py:10-28 | With no sexp the indent is the cursor's column. Otherwise it is the head's column, the head's 0-based column, or the second token's 0-based column. |
| `Keybindings.GetColumnIndent` | pthy/keybindings.py:10-28 | With an empty current sexp the new line keeps the cursor's column. Otherwise the indent is read off a token of the current sexp: its 0-based or its 1-based column. |
| `Keybindings.AutoNewline` | pthy/keybindings.py:31-35 | The newline and the indent's blanks go in at the cursor, so the cursor ends on a fresh line in the column `get_column_indent` chose (column 0 for a negative indent). The text after the cursor is untouched. |
| `Keybindings.IndentAfterInnermostOpener` | pthy/keybindings.py:14-28 | The four indent cases in terms of the stopping opener: the cursor column right after it; under the first token for a lone token or a paren head; one right of a special-form head (a global macro, or a compile-table name longer than one character); otherwise under the second token. |
| `Keybindings.IndentAtTopLevel` | pthy/keybindings.py:14-28 | With no stopping opener, the second token plays the head in the same cases. |
| `Keybindings.IndentAfterOpener` | pthy/keybindings.py:14-16 | Right after any opener the new line keeps the cursor's column. |
| `Keybindings.EnterMultiline` | pthy/keybindings.py:53-67 | Enter submits exactly when the text lexes and every character after the cursor is whitespace other than a newline. The submitted text is the text before the cursor, stripped, with the cursor at its end. Otherwise the cursor moves to a fresh line in the indent's column, and the text after it is kept. |
| `Keybindings.EnterSingleLine` | pthy/keybindings.py:69-76 | Enter submits exactly when the text lexes and every character after the cursor is whitespace other than a newline. The buffer is handed over as it is. Otherwise the cursor moves to a fresh line in the indent's column, and the text after it is kept. |
| `Keybindings.EnterHandlersAgree` | pthy/keybindings.py:53-76 | The multi-line and single-line handlers submit on the same key presses. The multi-line one hands over the single-line one's buffer stripped of trailing whitespace, with the cursor at its end. When they do not submit, both open the same new line. |
| `Keybindings.EnterMidBufferContinues` | pthy/keybindings.py:60-76 | With a non-blank character or a newline after the cursor, neither handler submits, and the new line keeps the text after the cursor. |
| `Legacy.ScanText` | main.py:59 | The legacy indenter lexes the text before the cursor plus the character under it, when there is one. |
| `Legacy.LegacyScanFrom` | main.py:62-68 | The paren-only scan ends on a reverse index inside the token list. |
| `Legacy.LegacyIndentSeesOnlyParens` | main.py:62-68 | Only `(` and `)` affect the legacy indent: blanking every other kind, brackets and braces included, leaves it unchanged. |
| `Legacy.LegacyColumnIndent` | main.py:55-76 | The legacy indent is the last token's 1-based column, or the 0-based column of some token after the first. |
| `Legacy.LegacyIndentBySexp` | main.py:59-76 | On paren-only tokens the legacy indent is read off the current sexp: its second token's 0-based column, its only token's 0-based column, or, for an empty sexp, the last token's 1-based column. |
| `Legacy.LegacyIndentAgrees` | main.py:55-76 | Given the same paren-only token list, the legacy and current indenters agree when the sexp is a lone token or an ordinary call. The two programs lex different text (main.py:59 takes one character past the cursor, pthy/utils.py:5 stops at the cursor), so this compares the indent rules, not the two programs on one buffer. |
| `Legacy.LegacyIndentAfterOpenParen` | main.py:69-75 | Right after a `(` the legacy indent is that paren's 1-based column, with no `- 1`. |
| `Legacy.LegacyEnterMultiline` | main.py:96-107 | Enter submits exactly when the buffer validates and every character after the cursor is whitespace other than a newline. The submitted text is the text before the cursor, stripped, with the cursor at its end. Otherwise a new line indented by the legacy indenter is opened. With the cursor inside the text, it goes in at the cursor and the text after the cursor is kept. With the cursor at the end, the failed validation has moved the cursor to the end of the text (main.py:100 with main.py:36-52), so the new line goes after the trailing blanks. Either way the cursor ends in the indent's column. |
| `Legacy.LegacyEnterSingleLine` | main.py:109-116 | Enter submits exactly when every character after the cursor is whitespace other than a newline; the handler itself neither lexes nor validates (the accept action validates afterwards, see "Left out"). The buffer is handed over as it is. Otherwise the cursor moves to a fresh line in the legacy indent's column, and the text after it is kept. |
| `Legacy.SingleLineHandlersCompared` | main.py:109-116 | Against the package's single-line handler (pthy/keybindings.py:69-76), handler against handler: on text that lexes, both submit on the same key presses and hand over the same buffer. At the end of text that does not lex, main.py's handler submits where the package's opens a new line. That difference is unreachable in main.py, because `src_is_multiline` sends such text to the multi-line handler (`Legacy.SingleLineDispatchAgrees`). |
| `Legacy.LegacyEnter` | main.py:96-132 | `src_is_multiline` (main.py:123-132) picks the handler. Enter submits exactly when the cursor is at the end and, for a buffer with a newline or a lex error, validation succeeds. The handler submits without validating first only for a newline-free buffer that lexes. When it opens a new line with the cursor at the end, the new line goes at the end of the text. |
| `Legacy.SingleLineDispatchAgrees` | main.py:109-132 | On a buffer `src_is_multiline` calls single-line, main.py's Enter submits exactly where the package's single-line handler (pthy/keybindings.py:69-76) does, and hands over the same buffer. |
| `Completer.TypedCharDecides` | pthy/completer.py:16-22 | Right after a character is typed, completion while typing fires exactly when that character is alphanumeric or one of `_.-`, unless the current sexp is the lone `.`. Any other character, such as a blank or a bracket, never fires it. |
| `Completer.LoneDotSilences` | pthy/completer.py:11-19 | After an opener followed by the identifier `.`, the current sexp is that lone `.`, it counts as a dot sexp, and completion while typing stays off whatever the buffer holds. |
| `Completer.FixupContents` | pthy/completer.py:24-32 | The text for the Python completer has no `-`. For a dot sexp it is the dot-join of the values after the `.`, each with `-` turned into `_`. Otherwise it is the text before the cursor, from the sexp's first character or whole when there is no sexp, with `-` turned into `_`. |
| `Completer.FixupDotSexpParts` | pthy/completer.py:28-32 | For a dot sexp with at least one token after the `.`, and no `.` inside those tokens' values, splitting the rewritten text at dots gives back those values, one per token, with `-` turned into `_`. |
| `Completer.AllMacroNames` | pthy/completer.py:47-48 | Every name of every namespace, global and per-module, is in the list, and the list holds nothing else. |
| `Completer.AllMacroNamesAppend` | pthy/completer.py:47-48 | The list is built namespace by namespace, in iteration order: the list of two runs of namespaces is the concatenation of their lists, and one namespace contributes exactly its own names, in order. |
| `Completer.FilterAppend` | pthy/completer.py:47-55 | Selecting the names with the prefix keeps their order: selecting from a concatenation is concatenating the selections. |
| `Completer.MacroMatches` | pthy/completer.py:46-50 | The macro matches are the macro names with the typed prefix, each as often as it is defined. |
| `Completer.BuiltinMatches` | pthy/completer.py:52-55 | The built-in matches are the standard-library and compile-table names with the prefix that are not Python keywords, each as often as it is listed. |
| `Completer.FindHyCompletions` | pthy/completer.py:34-56 | Every match starts with the prefix and is a macro or a non-keyword built-in. Each name occurs as often as it is defined as a macro plus, unless it is a keyword, as often as it is listed as a built-in. |
| `Completer.MacrosFirst` | pthy/completer.py:44-56 | The macro matches come first, in order, and every later match is a non-keyword built-in. |
| `Completer.SpecialFormOffered` | pthy/completer.py:46-55 | A name the indenter treats as a special form (pthy/keybindings.py:20-27) is offered as a completion of itself: a global macro always, even when it is named like a Python keyword, because the macro loop tests no keyword; a compile-table name longer than one character unless it is a Python keyword. |
| `Completer.DuplicatesKept` | pthy/completer.py:44-56 | A name that is both a macro and a built-in is offered at least twice: nothing is deduplicated. |
| `Completer.MacroInTwoNamespaces` | pthy/completer.py:46-50 | A macro name with the prefix that two namespaces define is offered at least twice: the macro loop visits every namespace and removes no duplicates. |
| `Completer.HyCompletions` | pthy/completer.py:60-66 | Hy names are offered only for a non-empty sexp whose head is not `import`. Each one extends the sexp's last token and starts that token's length before the cursor. |
| `Completer.FixupCompletions` | pthy/completer.py:58-80 | The result is a sorted permutation of the Hy and Python completions, and completions with equal keys keep their order. |
| `Completer.GetCompletions` | pthy/completer.py:82-96 | Nothing is offered unless completion was requested or the while-typing trigger fires. Otherwise the result is the sorted merge of the Hy names and the Python completer's results for the rewritten text. |
| `Ordering.Key` | pthy/completer.py:76-79 | The key puts a name in group 0 (no leading `-`), 1 (one leading `-`) or 2 (leading `--`); a `--` name also starts with `-`. |
| `Ordering.SortCorrect` | pthy/completer.py:76-80 | `sorted` with `compare_fun` yields a sorted permutation in which each key's completions keep their input order. |
| `Ordering.SortedGroups` | pthy/completer.py:76-79 | In sorted order, names without a leading `-` come first, then names with one `-`, then names with `--`. Within a group the order is by case-folded text. |

## Left out

- The Hy lexer and compiler are not part of this model. Token lists and the "lexes" and "validates" outcomes are parameters.
- `load_stdlib` and the `_hy_macros`, `_stdlib` and `_compile_table` globals are not modelled. They become a `Registry` value. A compile-table key is represented by its `str()`.
- Python's keyword list is a parameter, because it differs between Python versions.
- jedi's `Interpreter` is a function from text to completions. The in-place rewrite of jedi's names (`_` to `-`) is assumed to have happened already.
- The `Completion` object's `display` field is left out, and `if script:` is taken to hold.
- An exception inside `_fixup_completions` makes `get_completions` return nothing. That path is left out. Apart from jedi, and from hy's own imports and `load_stdlib()` inside `_find_hy_completions` (pthy/completer.py:35-42), its only source is a non-`str` compile-table key (see the `Completer.BuiltinMatches` line).
- Completer.BuiltinMatches: every compile-table key is assumed to be a `str`. pthy/completer.py:54 tests `str(name)` but appends `name` itself. A non-`str` key whose `str()` starts with the prefix would therefore become a completion whose text is not a string. `compare_fun` would then raise inside `_fixup_completions`, and `get_completions` would offer nothing.
- Completer.FixupDotSexpParts: the split round trip is stated only for dot sexps with at least one token after the `.` and no `.` inside those tokens' values. Otherwise splitting cannot give the values back one per part. `Completer.FixupContents` states the dot case for every dot sexp.
- `str.isalnum` on one character and `str.lower` are parameters. Their full Unicode tables are not modelled. `str.isspace` is modelled exactly as in CPython 3.4 and later. On Python 2.7 and 3.3, U+180E (Mongolian vowel separator) is whitespace too, and the model does not follow that.
- pthy/validator.py maps lexer and compiler exceptions to a validation error. It is not part of this model; its outcome is the `valid` flag.
- pthy/repl.py (evaluation and tracebacks), pthy/style.py (colours) and setup.py (packaging) are not part of this model.
- pthy/pthy.py (event loop, history and wiring) is not part of this model. Its `src_is_multiline` has the truth table of main.py's, which `Legacy.SrcIsMultiline` models and `Legacy.LegacyEnter` uses.
- prompt_toolkit's key registration, filters, `Document` and `accept_action` are left out. The buffer is a `(text, cursor)` pair, and a submit is an `Outcome`.
- `b.validate()` in main.py also records a validation message, which is not modelled. Its effect on the cursor is modelled: prompt_toolkit's `Buffer.validate` moves the cursor to the error's index, and `HyValidator` always reports the length of the text (`Legacy.AfterValidate`). prompt_toolkit itself is not part of this model; that behaviour of `Buffer.validate` is taken as given.
- `Buffers.InsertText` models `insert_text` without overwrite mode. `auto_newline` (pthy/keybindings.py:33-35, main.py:81-83) calls `insert_text` with its default `overwrite=False`, so overwrite mode plays no part.
- `Completer.CompleteWhileTyping` takes the character before the cursor at the start of the buffer to be empty, which Python finds `in '_.-'`. `Document` is not part of this model. In the source this case never reaches the test: with the cursor at the start, the text before it lexes to no tokens, and the extractor raises first (see the `Completer.GetCompletions` line).
- main.py's `src_is_multiline` catches only the lexer's own error. Any other exception from the lexer would propagate; the model's `lexFails` stands for the lexer's error alone.
- Keybindings.EnterMultiline and Keybindings.EnterSingleLine take the lexer's tokens for the text before the cursor as given, and non-empty, whenever they open a new line. In the source that lexing is unguarded (pthy/utils.py:6), so two crashes inside `auto_newline` are not modelled. Text that lexes to no tokens makes `get_tokens_in_current_sexp` raise `UnboundLocalError` (pthy/utils.py:25). An example is a multi-line buffer `(foo` with the cursor at position 0: the text does not lex, so Enter opens a new line, and the empty text before the cursor gives no tokens. Text the lexer rejects raises the lexer's error. An example is Enter with the cursor inside an unterminated string, as in `(print "ab`.
- Legacy.LegacyEnter, Legacy.LegacyEnterMultiline and Legacy.LegacyEnterSingleLine likewise take the lexer's tokens for `text[:cursor+1]` (main.py:59-60) as given and non-empty. A prefix the lexer rejects, or one with no tokens (such as an empty or comment-only buffer), raises inside `auto_newline` in the source; that is not modelled.
- Completer.GetCompletions, Completer.FixupContents and Completer.CompleteWhileTyping take the lexer's tokens for the text before the cursor as given and non-empty. In the source `get_tokens_in_current_sexp` runs in `_complete_hy_while_typing` and `_fixup_contents` (pthy/completer.py:17, 26), which `get_completions` calls outside its `try` (pthy/completer.py:83-84). When the text before the cursor lexes to no tokens, as for Tab on an empty line or on a line of blanks or a comment, it raises `UnboundLocalError` (pthy/utils.py:25). A prefix the lexer rejects raises the lexer's error. Neither crash is modelled.
- Every Submit outcome stands for a call to `accept_action.validate_and_handle` (main.py:105, 114; pthy/keybindings.py:65, 74). That call validates the buffer again with the REPL's validator and accepts only text that passes. The model stops at the call: a Submit means the handler hands the buffer over, not that the text is accepted.

=== FILE: buffers.dfy ===
/**
  The edit buffer as a plain `(text, cursor)` pair, with the few pieces of
  prompt_toolkit's document and buffer behaviour the Enter handlers use.
 */
module Buffers {
  import opened Text

  /** The buffer text and the cursor's character offset into it. */
  datatype Buffer = Buffer(text: string, cursor: nat) {
    predicate Valid() {
      cursor <= |text|
    }

    /** `document.text_before_cursor` */
    function Before(): string
      requires Valid()
    {
      text[..cursor]
    }

    /** `document.text_after_cursor` */
    function After(): string
      requires Valid()
    {
      text[cursor..]
    }
  }

  /** What an Enter key press does with the buffer: hand it to the accept
      action, or keep editing it. */
  datatype Outcome = Submit(buffer: Buffer) | Continue(buffer: Buffer)

  /** The length of the last line of `s`: the characters after its last newline. */
  function LastLineLength(s: string): (n: nat)
    ensures n <= |s|
    ensures forall i :: |s| - n <= i < |s| ==> s[i] != '\n'
    ensures n < |s| ==> s[|s| - n - 1] == '\n'
  {
    if s == [] || s[|s| - 1] == '\n' then 0 else 1 + LastLineLength(s[..|s| - 1])
  }

  /** `document.cursor_position_col`: the 0-based column of the cursor in its line. */
  function CursorCol(b: Buffer): nat
    requires b.Valid()
  {
    LastLineLength(b.Before())
  }

  /** `document.char_before_cursor`, as a string of at most one character. */
  function CharBefore(b: Buffer): string
    requires b.Valid()
  {
    if b.cursor == 0 then [] else [b.text[b.cursor - 1]]
  }

  /** `buffer.insert_text(s)`: `s` goes in at the cursor and the cursor moves
      past it; the text on either side is untouched. */
  function InsertText(b: Buffer, s: string): (r: Buffer)
    requires b.Valid()
    ensures r.Valid()
    ensures r.Before() == b.Before() + s
    ensures r.After() == b.After()
  {
    var t := b.Before() + s + b.After();
    assert t[..b.cursor + |s|] == b.Before() + s;
    Buffer(t, b.cursor + |s|)
  }

  /** Inserting `s` and then `t` is inserting `s + t`: the character-by-character
      inserts of the source amount to one insert of the whole string. */
  lemma InsertTextTwice(b: Buffer, s: string, t: string)
    requires b.Valid()
    ensures InsertText(InsertText(b, s), t) == InsertText(b, s + t)
  {
    var r1 := InsertText(InsertText(b, s), t);
    var r2 := InsertText(b, s + t);
    assert r1.Before() == b.Before() + s + t;
    assert r1.text == r1.Before() + r1.After();
    assert r2.text == r2.Before() + r2.After();
  }

  /** `auto_newline` once its indent is known: a newline, then one space for
      each step of `range(spaces)`, at the cursor. */
  function InsertNewline(b: Buffer, spaces: int): (r: Buffer)
    requires b.Valid()
    ensures r.Valid()
    ensures |r.text| == |b.text| + 1 + (if spaces > 0 then spaces else 0)
    ensures r.cursor == b.cursor + 1 + (if spaces > 0 then spaces else 0)
    ensures r.text[..b.cursor] == b.Before()
    ensures r.text[b.cursor] == '\n'
    ensures forall i :: b.cursor < i < r.cursor ==> r.text[i] == ' '
    ensures r.Before() == b.Before() + "\n" + Spaces(spaces)
    ensures r.After() == b.After()
    ensures r.text[..b.cursor] + r.text[r.cursor..] == b.text
  {
    var r := InsertText(b, "\n" + Spaces(spaces));
    assert r.text[..r.cursor] == b.Before() + "\n" + Spaces(spaces);
    r
  }

  /** After the newline and `spaces` blanks the cursor stands on a fresh line,
      in column `spaces` (column 0 for a negative count). */
  lemma NewlineColumn(b: Buffer, spaces: int)
    requires b.Valid()
    ensures CursorCol(InsertNewline(b, spaces)) == if spaces > 0 then spaces else 0
  {
    var r := InsertNewline(b, spaces);
    var s := r.Before();
    var n := LastLineLength(s);
    assert |s| == r.cursor;
    assert s[b.cursor] == '\n';
    assert forall i :: b.cursor < i < |s| ==> s[i] == ' ';
    assert n < |s| - b.cursor;
  }

  /** `at_the_end`: the text after the cursor is empty, or is whitespace with
      no newline. Equivalently, every character after the cursor is
      whitespace other than a newline. */
  function AtTheEnd(b: Buffer): (r: bool)
    requires b.Valid()
    ensures r <==> forall i :: b.cursor <= i < |b.text| ==> IsSpace(b.text[i]) && b.text[i] != '\n'
  {
    var text := b.After();
    assert forall i :: b.cursor <= i < |b.text| ==> b.text[i] == text[i - b.cursor];
    text == [] || (IsSpaceString(text) && '\n' !in text)
  }

  /** Accepting at the end strips only what follows the cursor and trailing
      whitespace: the stripped buffer equals the stripped text before the cursor. */
  lemma AtTheEndStripsOnlyAfter(b: Buffer)
    requires b.Valid() && AtTheEnd(b)
    ensures RStrip(b.text) == RStrip(b.Before())
    ensures |RStrip(b.text)| <= b.cursor
  {
    assert b.text == b.Before() + b.After();
    assert forall i :: 0 <= i < |b.After()| ==> b.After()[i] == b.text[b.cursor + i];
    RStripIgnoresTrailingSpace(b.Before(), b.After());
  }
}

=== FILE: completer.dfy ===
/**
  pthy/completer.py: when to complete while typing, the text handed to the
  Python completer, the Hy names that match the word being typed, and the
  merged, sorted completion list. The Python completer (jedi) is a parameter
  mapping the rewritten text to its completions.
 */
module Completer {
  import opened Tokens
  import opened Sexp
  import opened Text
  import opened Buffers
  import opened Registry
  import opened Ordering

  /** `_is_dot_sexp`: a sexp headed by the identifier ".". */
  predicate IsDotSexp(sexp: seq<Token>) {
    |sexp| > 0 && sexp[0].kind == Identifier && sexp[0].value == "."
  }

  /** `_complete_hy_while_typing`, where `before` is the lexer's output for the
      text before the cursor and `isAlnum` is `str.isalnum` on one character.
      At the start of the buffer the character before the cursor is "", which
      Python finds `in '_.-'`. */
  predicate CompleteWhileTyping(b: Buffer, before: seq<Token>, isAlnum: char -> bool)
    requires b.Valid() && |before| > 0
  {
    var sexp := CurrentSexp(before);
    if |sexp| == 1 && IsDotSexp(sexp) then false
    else
      var c := CharBefore(b);
      |b.text| > 0 && (c == [] || isAlnum(c[0]) || c[0] in "_.-")
  }

  /** After typing one character, completion while typing is on exactly
      when that character is alphanumeric or one of `_.-`, unless the current
      sexp is the lone `.`. `after` is the lexer's output for the text before
      the cursor once the character is in. */
  lemma TypedCharDecides(b: Buffer, c: char, after: seq<Token>, isAlnum: char -> bool)
    requires b.Valid() && |after| > 0
    ensures var s := CurrentSexp(after);
            CompleteWhileTyping(InsertText(b, [c]), after, isAlnum)
            <==> !(|s| == 1 && IsDotSexp(s)) && (isAlnum(c) || c in "_.-")
  {
    var r := InsertText(b, [c]);
    assert r.Before() == b.Before() + [c];
    assert r.text[r.cursor - 1] == r.Before()[r.cursor - 1] == c;
    assert CharBefore(r) == [c];
  }

  /** An opener followed by the identifier `.` before the cursor makes the
      current sexp the lone `.`, which turns completion while typing off
      whatever the buffer holds. */
  lemma LoneDotSilences(b: Buffer, before: seq<Token>, isAlnum: char -> bool)
    requires b.Valid() && |before| >= 2
    requires IsOpener(before[|before| - 2].kind)
    requires before[|before| - 1].kind == Identifier && before[|before| - 1].value == "."
    ensures CurrentSexp(before) == [before[|before| - 1]]
    ensures IsDotSexp(CurrentSexp(before))
    ensures !CompleteWhileTyping(b, before, isAlnum)
  {
    assert Delta(before[|before| - 1].kind) == Zero;
    OpenerThenOne(before);
  }

  /** `_fixup_contents`: the text the Python completer sees, with every "-"
      turned into "_". For a dot sexp, the dot-join of the values after the
      "."; for another sexp, the text before the cursor from the sexp's first
      character on; with no sexp, all of the text before the cursor. */
  function FixupContents(b: Buffer, before: seq<Token>): (r: string)
    requires b.Valid() && |before| > 0
    ensures '-' !in r
    ensures var s := CurrentSexp(before);
            IsDotSexp(s) ==> r == JoinDot(ReplaceHyphensAll(Values(s[1..])))
    ensures var s := CurrentSexp(before);
            !IsDotSexp(s) ==>
              var t := if s == [] then b.Before() else Drop(b.Before(), s[0].idx);
              |r| == |t| && forall i :: 0 <= i < |r| ==> (t[i] == '-' ==> r[i] == '_') && (t[i] != '-' ==> r[i] == t[i])
  {
    var text := b.Before();
    var sexp := CurrentSexp(before);
    if sexp == [] then ReplaceHyphens(text)
    else if IsDotSexp(sexp) then
      ReplaceHyphensJoin(Values(sexp[1..]));
      ReplaceHyphens(JoinDot(Values(sexp[1..])))
    else ReplaceHyphens(Drop(text, sexp[0].idx))
  }

  /** `ReplaceHyphens` applied to every part. */
  function ReplaceHyphensAll(parts: seq<string>): (r: seq<string>)
    ensures |r| == |parts|
    ensures forall i :: 0 <= i < |parts| ==> r[i] == ReplaceHyphens(parts[i])
  {
    if parts == [] then [] else [ReplaceHyphens(parts[0])] + ReplaceHyphensAll(parts[1..])
  }

  lemma ReplaceHyphensAppend(a: string, b: string)
    ensures ReplaceHyphens(a + b) == ReplaceHyphens(a) + ReplaceHyphens(b)
  {
    assert forall i :: 0 <= i < |a + b| ==> (a + b)[i] == if i < |a| then a[i] else b[i - |a|];
  }

  lemma {:induction false} ReplaceHyphensJoin(parts: seq<string>)
    ensures ReplaceHyphens(JoinDot(parts)) == JoinDot(ReplaceHyphensAll(parts))
  {
    if |parts| > 1 {
      ReplaceHyphensJoin(parts[1..]);
      ReplaceHyphensAppend(parts[0] + ".", JoinDot(parts[1..]));
      ReplaceHyphensAppend(parts[0], ".");
      assert ReplaceHyphens(".") == ".";
      assert ReplaceHyphensAll(parts)[1..] == ReplaceHyphensAll(parts[1..]);
    }
  }

  /** For a dot sexp whose values have no "." of their own, splitting the
      rewritten text at its dots gives back the values after the head, one
      part per token, hyphens turned into underscores. */
  lemma FixupDotSexpParts(b: Buffer, before: seq<Token>)
    requires b.Valid() && |before| > 0
    requires var s := CurrentSexp(before);
             IsDotSexp(s) && |s| > 1 && forall i :: 1 <= i < |s| ==> '.' !in s[i].value
    ensures var s := CurrentSexp(before);
            var parts := SplitDot(FixupContents(b, before));
            |parts| == |s| - 1 && forall i :: 0 <= i < |parts| ==> parts[i] == ReplaceHyphens(s[i + 1].value)
  {
    var s := CurrentSexp(before);
    var vs := Values(s[1..]);
    var rs := ReplaceHyphensAll(vs);
    assert FixupContents(b, before) == ReplaceHyphens(JoinDot(vs));
    ReplaceHyphensJoin(vs);
    forall i | 0 <= i < |rs|
      ensures '.' !in rs[i]
    {
      assert vs[i] == s[i + 1].value;
      ReplaceHyphensKeepsDots(vs[i]);
    }
    SplitJoinDot(rs);
    assert SplitDot(FixupContents(b, before)) == rs;
  }

  lemma ReplaceHyphensKeepsDots(s: string)
    requires '.' !in s
    ensures '.' !in ReplaceHyphens(s)
  {
    var r := ReplaceHyphens(s);
    forall j | 0 <= j < |r|
      ensures r[j] != '.'
    {
      assert s[j] != '.';
    }
  }

  /** The macro names of every namespace, in the registry's order. */
  function AllMacroNames(macros: seq<Namespace>): (names: seq<string>)
    ensures forall k, n :: 0 <= k < |macros| && n in macros[k].names ==> n in names
    ensures forall i :: 0 <= i < |names| ==> exists k :: 0 <= k < |macros| && names[i] in macros[k].names
  {
    if macros == [] then []
    else
      var rest := AllMacroNames(macros[1..]);
      assert forall k :: 1 <= k < |macros| ==> macros[k] == macros[1..][k - 1];
      macros[0].names + rest
  }

  /** The names are listed namespace by namespace: the list for a
      concatenation of namespace lists is the concatenation of their lists,
      and one namespace contributes exactly its own names, in order. So a
      name appears once for every namespace that defines it. */
  lemma {:induction false} AllMacroNamesAppend(a: seq<Namespace>, b: seq<Namespace>)
    ensures AllMacroNames(a + b) == AllMacroNames(a) + AllMacroNames(b)
    ensures |a| == 1 ==> AllMacroNames(a) == a[0].names
  {
    if a == [] {
      assert a + b == b;
    } else {
      calc {
        AllMacroNames(a + b);
      ==  { assert (a + b)[0] == a[0] && (a + b)[1..] == a[1..] + b; }
        a[0].names + AllMacroNames(a[1..] + b);
      ==  { AllMacroNamesAppend(a[1..], b); }
        a[0].names + (AllMacroNames(a[1..]) + AllMacroNames(b));
      ==  { SeqAssoc(a[0].names, AllMacroNames(a[1..]), AllMacroNames(b)); }
        (a[0].names + AllMacroNames(a[1..])) + AllMacroNames(b);
      ==
        AllMacroNames(a) + AllMacroNames(b);
      }
      if |a| == 1 {
        assert a[1..] == [];
      }
    }
  }

  /** A macro name defined in two namespaces is offered at least twice when
      it has the prefix: the macro loop visits both namespaces. */
  lemma MacroInTwoNamespaces(partial: string, reg: Registry, keywords: set<string>, n: string, k1: nat, k2: nat)
    requires k1 < k2 < |reg.macros|
    requires n in reg.macros[k1].names && n in reg.macros[k2].names && partial <= n
    ensures multiset(FindHyCompletions(partial, reg, keywords))[n] >= 2
  {
    var front, back := reg.macros[..k2], reg.macros[k2..];
    assert reg.macros == front + back;
    AllMacroNamesAppend(front, back);
    assert front[k1] == reg.macros[k1];
    assert n in AllMacroNames(front);
    assert back[0] == reg.macros[k2];
    assert n in AllMacroNames(back);
    assert multiset(AllMacroNames(reg.macros)) == multiset(AllMacroNames(front)) + multiset(AllMacroNames(back));
    assert multiset(AllMacroNames(reg.macros))[n] >= 2;
  }

  /** The elements of `xs` that satisfy `p`, in order. */
  function Filter(xs: seq<string>, p: string -> bool): seq<string> {
    if xs == [] then [] else (if p(xs[0]) then [xs[0]] else []) + Filter(xs[1..], p)
  }

  /** The filter keeps only elements of its input that satisfy `p`, each
      exactly as often as it occurs in the input. */
  lemma {:induction false} FilterKeeps(xs: seq<string>, p: string -> bool)
    ensures var ys := Filter(xs, p);
            forall i :: 0 <= i < |ys| ==> p(ys[i]) && ys[i] in xs
    ensures forall x :: multiset(Filter(xs, p))[x] == if p(x) then multiset(xs)[x] else 0
  {
    if xs != [] {
      FilterKeeps(xs[1..], p);
      assert xs == [xs[0]] + xs[1..];
      var ys := Filter(xs, p);
      var head := if p(xs[0]) then [xs[0]] else [];
      assert ys == head + Filter(xs[1..], p);
      forall i | 0 <= i < |ys|
        ensures p(ys[i]) && ys[i] in xs
      {
        if i >= |head| {
          assert ys[i] == Filter(xs[1..], p)[i - |head|];
        }
      }
      assert multiset(ys) == multiset(head) + multiset(Filter(xs[1..], p));
    }
  }

  /** Filtering keeps the order of its input: filtering a concatenation is
      concatenating the filtered halves. */
  lemma {:induction false} FilterAppend(a: seq<string>, b: seq<string>, p: string -> bool)
    ensures Filter(a + b, p) == Filter(a, p) + Filter(b, p)
  {
    if a != [] {
      var head := if p(a[0]) then [a[0]] else [];
      calc {
        Filter(a + b, p);
      ==  { assert (a + b)[0] == a[0] && (a + b)[1..] == a[1..] + b; }
        head + Filter(a[1..] + b, p);
      ==  { FilterAppend(a[1..], b, p); }
        head + (Filter(a[1..], p) + Filter(b, p));
      ==  { SeqAssoc(head, Filter(a[1..], p), Filter(b, p)); }
        (head + Filter(a[1..], p)) + Filter(b, p);
      ==
        Filter(a, p) + Filter(b, p);
      }
    } else {
      assert a + b == b;
    }
  }

  lemma SeqAssoc(x: seq<string>, y: seq<string>, z: seq<string>)
    ensures x + (y + z) == (x + y) + z
  {
  }

  /** One element is kept exactly when it satisfies `p`. With `FilterAppend`
      this fixes the filter as the ordered subsequence of the elements that
      satisfy `p`. */
  lemma FilterOne(x: string, p: string -> bool)
    ensures Filter([x], p) == if p(x) then [x] else []
  {
    assert [x][1..] == [];
  }

  /** The macro names that start with `partial`. */
  function MacroMatches(partial: string, reg: Registry): (ms: seq<string>)
    ensures forall i :: 0 <= i < |ms| ==> partial <= ms[i] && ms[i] in AllMacroNames(reg.macros)
    ensures forall n :: multiset(ms)[n] == if partial <= n then multiset(AllMacroNames(reg.macros))[n] else 0
  {
    var hasPrefix := n => partial <= n;
    var ms := Filter(AllMacroNames(reg.macros), hasPrefix);
    FilterKeeps(AllMacroNames(reg.macros), hasPrefix);
    assert forall i :: 0 <= i < |ms| ==> hasPrefix(ms[i]);
    ms
  }

  /** The standard-library and compile-table names that start with `partial`
      and are not Python keywords. */
  function BuiltinMatches(partial: string, reg: Registry, keywords: set<string>): (ms: seq<string>)
    ensures forall i :: 0 <= i < |ms| ==> partial <= ms[i] && ms[i] in reg.stdlib + reg.compileTable && ms[i] !in keywords
    ensures forall n :: multiset(ms)[n] ==
              if partial <= n && n !in keywords then multiset(reg.stdlib + reg.compileTable)[n] else 0
  {
    var offered := n => partial <= n && n !in keywords;
    var ms := Filter(reg.stdlib + reg.compileTable, offered);
    FilterKeeps(reg.stdlib + reg.compileTable, offered);
    assert forall i :: 0 <= i < |ms| ==> offered(ms[i]);
    ms
  }

  /** `_find_hy_completions(partial)`: macro names, then built-in names, that
      start with `partial`; built-ins that are Python keywords are dropped.
      Nothing is deduplicated. */
  function FindHyCompletions(partial: string, reg: Registry, keywords: set<string>): (ms: seq<string>)
    ensures forall i :: 0 <= i < |ms| ==> partial <= ms[i]
    ensures forall i :: 0 <= i < |ms| ==>
              ms[i] in AllMacroNames(reg.macros) || (ms[i] in reg.stdlib + reg.compileTable && ms[i] !in keywords)
    ensures forall n :: multiset(ms)[n] ==
              if partial <= n then
                multiset(AllMacroNames(reg.macros))[n]
                + (if n !in keywords then multiset(reg.stdlib + reg.compileTable)[n] else 0)
              else 0
  {
    var ms := MacroMatches(partial, reg) + BuiltinMatches(partial, reg, keywords);
    CountConcat(MacroMatches(partial, reg), BuiltinMatches(partial, reg, keywords));
    forall i | 0 <= i < |ms|
      ensures partial <= ms[i]
      ensures ms[i] in AllMacroNames(reg.macros) || (ms[i] in reg.stdlib + reg.compileTable && ms[i] !in keywords)
    {
      MatchAt(partial, reg, keywords, i);
    }
    ms
  }

  /** Counting in a concatenation adds the counts of its halves. */
  lemma CountConcat(a: seq<string>, b: seq<string>)
    ensures forall n :: multiset(a + b)[n] == multiset(a)[n] + multiset(b)[n]
  {
    assert multiset(a + b) == multiset(a) + multiset(b);
  }

  /** Each entry of the concatenated matches is a macro match or a built-in match. */
  lemma MatchAt(partial: string, reg: Registry, keywords: set<string>, i: nat)
    requires i < |MacroMatches(partial, reg) + BuiltinMatches(partial, reg, keywords)|
    ensures var ms := MacroMatches(partial, reg) + BuiltinMatches(partial, reg, keywords);
            && partial <= ms[i]
            && (ms[i] in AllMacroNames(reg.macros) || (ms[i] in reg.stdlib + reg.compileTable && ms[i] !in keywords))
  {
    var macros := MacroMatches(partial, reg);
    var builtins := BuiltinMatches(partial, reg, keywords);
    if i < |macros| {
      assert (macros + builtins)[i] == macros[i];
    } else {
      assert (macros + builtins)[i] == builtins[i - |macros|];
    }
  }

  /** Every macro match comes before every built-in match: the result starts
      with the matching macros and the rest are non-keyword built-ins. */
  lemma MacrosFirst(partial: string, reg: Registry, keywords: set<string>)
    ensures var ms := FindHyCompletions(partial, reg, keywords);
            var k := |MacroMatches(partial, reg)|;
            k <= |ms| && ms[..k] == MacroMatches(partial, reg)
            && forall i :: k <= i < |ms| ==> ms[i] in reg.stdlib + reg.compileTable && ms[i] !in keywords
  {
    var macros := MacroMatches(partial, reg);
    var builtins := BuiltinMatches(partial, reg, keywords);
    var ms := FindHyCompletions(partial, reg, keywords);
    assert ms == macros + builtins;
    assert ms[..|macros|] == macros;
    forall i | |macros| <= i < |ms|
      ensures ms[i] in reg.stdlib + reg.compileTable && ms[i] !in keywords
    {
      assert ms[i] == builtins[i - |macros|];
    }
  }

  /** A head the indenter treats as a special form is also offered when its
      name is typed: a global macro completes to itself even when it is named
      like a Python keyword, and a compile-table name does unless it is a
      keyword. */
  lemma SpecialFormOffered(reg: Registry, keywords: set<string>, name: string)
    requires IsGlobalMacro(reg, name) || (name in reg.compileTable && |name| > 1 && name !in keywords)
    ensures name in FindHyCompletions(name, reg, keywords)
  {
    var ms := FindHyCompletions(name, reg, keywords);
    if IsGlobalMacro(reg, name) {
      var k :| 0 <= k < |reg.macros| && reg.macros[k].key == Global && name in reg.macros[k].names;
      assert name in AllMacroNames(reg.macros);
      assert multiset(AllMacroNames(reg.macros))[name] > 0;
    } else {
      assert name in reg.stdlib + reg.compileTable;
      assert multiset(reg.stdlib + reg.compileTable)[name] > 0;
    }
    assert multiset(ms)[name] > 0;
  }

  /** A name both defined as a macro and listed as a built-in is offered twice. */
  lemma DuplicatesKept(partial: string, reg: Registry, keywords: set<string>, n: string)
    requires partial <= n && n !in keywords
    requires n in AllMacroNames(reg.macros) && n in reg.stdlib + reg.compileTable
    ensures multiset(FindHyCompletions(partial, reg, keywords))[n] >= 2
  {
  }

  /** The Hy part of `_fixup_completions`: for a sexp with a head other than
      "import", one completion per Hy name matching the sexp's last token, each
      replacing that token. */
  function HyCompletions(sexp: seq<Token>, reg: Registry, keywords: set<string>): (cs: seq<Completion>)
    ensures |sexp| == 0 || sexp[0].value == "import" ==> cs == []
    ensures |sexp| > 0 && sexp[0].value != "import" ==>
              var word := sexp[|sexp| - 1].value;
              var ms := FindHyCompletions(word, reg, keywords);
              |cs| == |ms|
              && forall i :: 0 <= i < |cs| ==> cs[i].text == ms[i] && cs[i].start == -|word| && word <= cs[i].text
  {
    if |sexp| == 0 || sexp[0].value == "import" then []
    else
      var word := sexp[|sexp| - 1].value;
      Completions(FindHyCompletions(word, reg, keywords), -|word|)
  }

  /** `Completion(match, start)` for each match. */
  function Completions(ms: seq<string>, start: int): (cs: seq<Completion>)
    ensures |cs| == |ms|
    ensures forall i :: 0 <= i < |cs| ==> cs[i] == Completion(ms[i], start)
  {
    if ms == [] then [] else [Completion(ms[0], start)] + Completions(ms[1..], start)
  }

  /** `_fixup_completions`: the Hy completions and the Python completer's,
      sorted together. `others` are the Python completions already rewritten
      to Hy names. */
  function FixupCompletions(sexp: seq<Token>, reg: Registry, keywords: set<string>,
                            others: seq<Completion>, lower: string -> string): (cs: seq<Completion>)
    ensures multiset(cs) == multiset(HyCompletions(sexp, reg, keywords) + others)
    ensures Sorted(cs, lower)
    ensures forall k :: WithKey(cs, k, lower) == WithKey(HyCompletions(sexp, reg, keywords) + others, k, lower)
  {
    var all := HyCompletions(sexp, reg, keywords) + others;
    SortCorrect(all, lower);
    Sort(all, lower)
  }

  /** `get_completions`: nothing unless completion was requested or the
      while-typing trigger fires; otherwise the Python completer runs on the
      rewritten text and its results are merged with the Hy names. */
  function GetCompletions(b: Buffer, before: seq<Token>, requested: bool, isAlnum: char -> bool,
                          reg: Registry, keywords: set<string>,
                          python: string -> seq<Completion>, lower: string -> string): (cs: seq<Completion>)
    requires b.Valid() && |before| > 0
    ensures !requested && !CompleteWhileTyping(b, before, isAlnum) ==> cs == []
    ensures requested || CompleteWhileTyping(b, before, isAlnum) ==>
              multiset(cs) == multiset(HyCompletions(CurrentSexp(before), reg, keywords) + python(FixupContents(b, before)))
              && Sorted(cs, lower)
  {
    if requested || CompleteWhileTyping(b, before, isAlnum) then
      FixupCompletions(CurrentSexp(before), reg, keywords, python(FixupContents(b, before)), lower)
    else []
  }
}

=== FILE: keybindings.dfy ===
/**
  pthy/keybindings.py: the column a new line is indented to, the newline
  insertion, and what the Enter key does in single- and multi-line buffers.
  Lexing is outside the model: a handler receives the lexer's tokens for the
  text before the cursor and whether the whole text lexes.
 */
module Keybindings {
  import opened Tokens
  import opened Sexp
  import opened Text
  import opened Buffers
  import opened Registry

  /** `get_column_indent` given the current sexp and the cursor's column. With
      no sexp the cursor column is kept; a lone token or a paren head is
      aligned under; a special-form head puts the line one column right of
      where the head starts; any other form aligns under its second token. */
  function ColumnIndent(sexp: seq<Token>, cursorCol: nat, reg: Registry): (n: int)
    ensures sexp == [] ==> n == cursorCol
    ensures sexp != [] ==> n == Col0(sexp[0]) || n == sexp[0].colno || (|sexp| > 1 && n == Col0(sexp[1]))
  {
    if |sexp| == 0 then cursorCol
    else if |sexp| == 1 || sexp[0].kind == LParen then Col0(sexp[0])
    else if IsSpecialForm(reg, sexp[0].value) then sexp[0].colno
    else Col0(sexp[1])
  }

  /** `get_column_indent(buffer)`, where `before` is the lexer's output for
      the text before the cursor. A new line either keeps the cursor's
      column or lines up with a token of the current sexp. */
  function GetColumnIndent(b: Buffer, before: seq<Token>, reg: Registry): (n: int)
    requires b.Valid() && |before| > 0
    ensures CurrentSexp(before) == [] ==> n == CursorCol(b)
    ensures CurrentSexp(before) != [] ==>
              exists j :: SexpStart(before) <= j < |before| && (n == Col0(before[j]) || n == before[j].colno)
  {
    var s := CurrentSexp(before);
    var k := SexpStart(before);
    assert s != [] ==> s[0] == before[k];
    assert |s| > 1 ==> s[1] == before[k + 1];
    ColumnIndent(s, CursorCol(b), reg)
  }

  /** `auto_newline(buffer)`: the cursor ends up on a fresh line, in the
      column `get_column_indent` chose, with the text after it untouched. */
  function AutoNewline(b: Buffer, before: seq<Token>, reg: Registry): (r: Buffer)
    requires b.Valid() && |before| > 0
    ensures r.Valid()
    ensures r.Before() == b.Before() + "\n" + Spaces(GetColumnIndent(b, before, reg))
    ensures r.After() == b.After()
    ensures var n := GetColumnIndent(b, before, reg);
            CursorCol(r) == if n > 0 then n else 0
  {
    var n := GetColumnIndent(b, before, reg);
    NewlineColumn(b, n);
    InsertNewline(b, n)
  }

  /** The indent in terms of the innermost open bracket at position `q` of the
      tokens before the cursor, without reference to the scan. */
  lemma IndentAfterInnermostOpener(b: Buffer, before: seq<Token>, reg: Registry, q: nat)
    requires b.Valid() && q < |before|
    requires StopsAt(before, q)
    requires forall q' :: q < q' < |before| ==> !StopsAt(before, q')
    ensures q + 1 == |before| ==> GetColumnIndent(b, before, reg) == CursorCol(b)
    ensures q + 1 < |before| && (q + 2 == |before| || before[q + 1].kind == LParen)
            ==> GetColumnIndent(b, before, reg) == Col0(before[q + 1])
    ensures q + 2 < |before| && before[q + 1].kind != LParen && IsSpecialForm(reg, before[q + 1].value)
            ==> GetColumnIndent(b, before, reg) == before[q + 1].colno
    ensures q + 2 < |before| && before[q + 1].kind != LParen && !IsSpecialForm(reg, before[q + 1].value)
            ==> GetColumnIndent(b, before, reg) == Col0(before[q + 2])
  {
    SexpAfterInnermostOpener(before, q);
    var s := CurrentSexp(before);
    assert s == before[q + 1..];
    assert GetColumnIndent(b, before, reg) == ColumnIndent(s, CursorCol(b), reg);
    if q + 1 < |before| {
      assert s[0] == before[q + 1];
    }
    if q + 2 < |before| {
      assert s[1] == before[q + 2];
    }
  }

  /** The indent when no bracket after the first token is open: the first
      token is dropped and the second plays the head. */
  lemma IndentAtTopLevel(b: Buffer, before: seq<Token>, reg: Registry)
    requires b.Valid() && |before| > 1
    requires forall q :: 1 <= q < |before| ==> !StopsAt(before, q)
    ensures |before| == 2 || before[1].kind == LParen ==> GetColumnIndent(b, before, reg) == Col0(before[1])
    ensures |before| > 2 && before[1].kind != LParen && IsSpecialForm(reg, before[1].value)
            ==> GetColumnIndent(b, before, reg) == before[1].colno
    ensures |before| > 2 && before[1].kind != LParen && !IsSpecialForm(reg, before[1].value)
            ==> GetColumnIndent(b, before, reg) == Col0(before[2])
  {
    SexpWithoutStop(before);
  }

  /** Right after an opener of any kind the new line keeps the cursor's column. */
  lemma IndentAfterOpener(b: Buffer, before: seq<Token>, reg: Registry)
    requires b.Valid() && |before| > 0
    requires IsOpener(before[|before| - 1].kind)
    ensures GetColumnIndent(b, before, reg) == CursorCol(b)
  {
    SexpEmptyAfterOpener(before);
  }

  /** The Enter handler of a multi-line buffer: accept when the cursor is at
      the end and the text lexes, after stripping trailing whitespace and
      moving the cursor to the end; otherwise insert an indented newline. */
  function EnterMultiline(b: Buffer, lexes: bool, before: seq<Token>, reg: Registry): (r: Outcome)
    requires b.Valid()
    requires !(AtTheEnd(b) && lexes) ==> |before| > 0
    ensures r.Submit? <==> lexes && forall j :: b.cursor <= j < |b.text| ==> IsSpace(b.text[j]) && b.text[j] != '\n'
    ensures r.Submit? ==> r.buffer.text == RStrip(b.Before()) && r.buffer.cursor == |r.buffer.text|
    ensures r.Continue? ==>
              var n := GetColumnIndent(b, before, reg);
              && r.buffer.Valid()
              && r.buffer.Before() == b.Before() + "\n" + Spaces(n)
              && r.buffer.After() == b.After()
              && CursorCol(r.buffer) == if n > 0 then n else 0
  {
    if AtTheEnd(b) && lexes then
      AtTheEndStripsOnlyAfter(b);
      Submit(Buffer(RStrip(b.text), |RStrip(b.text)|))
    else
      Continue(AutoNewline(b, before, reg))
  }

  /** The Enter handler of a single-line buffer: accept the buffer unchanged
      when the cursor is at the end and the text lexes; otherwise insert an
      indented newline. */
  function EnterSingleLine(b: Buffer, lexes: bool, before: seq<Token>, reg: Registry): (r: Outcome)
    requires b.Valid()
    requires !(AtTheEnd(b) && lexes) ==> |before| > 0
    ensures r.Submit? <==> lexes && forall j :: b.cursor <= j < |b.text| ==> IsSpace(b.text[j]) && b.text[j] != '\n'
    ensures r.Submit? ==> r.buffer == b
    ensures r.Continue? ==>
              var n := GetColumnIndent(b, before, reg);
              && r.buffer.Valid()
              && r.buffer.Before() == b.Before() + "\n" + Spaces(n)
              && r.buffer.After() == b.After()
              && CursorCol(r.buffer) == if n > 0 then n else 0
  {
    if AtTheEnd(b) && lexes then Submit(b) else Continue(AutoNewline(b, before, reg))
  }

  /** The two handlers differ only in what they hand over: they accept on the
      same key presses, the multi-line one accepts the single-line one's
      buffer stripped of trailing whitespace with the cursor at its end, and
      otherwise both open the same new line. */
  lemma EnterHandlersAgree(b: Buffer, lexes: bool, before: seq<Token>, reg: Registry)
    requires b.Valid()
    requires !(AtTheEnd(b) && lexes) ==> |before| > 0
    ensures var m := EnterMultiline(b, lexes, before, reg);
            var s := EnterSingleLine(b, lexes, before, reg);
            && (m.Submit? <==> s.Submit?)
            && (m.Submit? ==> m.buffer == Buffer(RStrip(s.buffer.text), |RStrip(s.buffer.text)|))
            && (m.Continue? ==> m.buffer == s.buffer)
  {
  }

  /** With anything but newline-free whitespace after the cursor, Enter never
      accepts, whether or not the text lexes: both handlers open a new line
      at the cursor and keep the text after it. */
  lemma EnterMidBufferContinues(b: Buffer, lexes: bool, before: seq<Token>, reg: Registry, j: nat)
    requires b.Valid() && |before| > 0
    requires b.cursor <= j < |b.text| && (!IsSpace(b.text[j]) || b.text[j] == '\n')
    ensures EnterMultiline(b, lexes, before, reg).Continue?
    ensures EnterSingleLine(b, lexes, before, reg).Continue?
    ensures var r := EnterMultiline(b, lexes, before, reg).buffer;
            r.text[..b.cursor] == b.Before() && r.text[b.cursor] == '\n' && r.After() == b.After()
  {
  }
}

=== FILE: legacy.dfy ===
/**
  main.py, the earlier single-file REPL: a paren-only indenter that lexes
  the text up to and including the character under the cursor, its Enter
  handlers (which validate instead of lexing), and the multi-line test that
  picks between them.
 */
module Legacy {
  import opened Tokens
  import opened Sexp
  import opened Text
  import opened Buffers
  import opened Registry
  import opened Keybindings

  /** `text[:cursor_position + 1]`: the text before the cursor and the
      character under it, when there is one. */
  function ScanText(b: Buffer): (s: string)
    requires b.Valid()
    ensures s <= b.text
    ensures b.Before() <= s
    ensures |s| == if b.cursor < |b.text| then b.cursor + 1 else |b.text|
  {
    if b.cursor < |b.text| then b.text[..b.cursor + 1] else b.text
  }

  /** The legacy counter after a token of kind `k`: up for `)`, down for `(`. */
  function LegacyNext(k: Kind, parens: int): int {
    if k == RParen then parens + 1 else if k == LParen then parens - 1 else parens
  }

  /** The legacy reverse scan from reverse index `i` with `parens` unmatched
      closing parens: stop at a `(` when the counter is zero. Square and curly
      brackets are not looked at. */
  function LegacyScanFrom(tokens: seq<Token>, i: nat, parens: int): (r: nat)
    requires i < |tokens|
    ensures i <= r < |tokens|
    decreases |tokens| - i
  {
    var k := tokens[|tokens| - 1 - i].kind;
    if k == LParen && parens == 0 then i
    else if i + 1 == |tokens| then i
    else LegacyScanFrom(tokens, i + 1, LegacyNext(k, parens))
  }

  /** The legacy `get_column_indent` on the tokens of `ScanText`. With the scan
      ending at reverse index `i`: for `i > 1` the column of the token two
      after the stop, for `i == 1` that of the last token, and for `i == 0`
      the last token's 1-based column, without the `- 1`. The source fails on
      an empty token list. */
  function LegacyColumnIndent(tokens: seq<Token>): (n: int)
    requires |tokens| > 0
    ensures n == tokens[|tokens| - 1].colno || exists j :: 0 < j < |tokens| && n == Col0(tokens[j])
  {
    var i := LegacyScanFrom(tokens, 0, 0);
    if |tokens| > |tokens| - i + 1 then Col0(tokens[|tokens| - i + 1])
    else if |tokens| > |tokens| - i then Col0(tokens[|tokens| - i])
    else tokens[|tokens| - 1].colno
  }

  /** A paren kind stays, every other kind becomes `Other`. */
  function ParenKind(k: Kind): (r: Kind)
    ensures r == LParen <==> k == LParen
    ensures r == RParen <==> k == RParen
    ensures r == LParen || r == RParen || r == Other
  {
    if k == LParen || k == RParen then k else Other
  }

  /** The tokens with every kind but `(` and `)` blanked out. */
  function ParenOnly(tokens: seq<Token>): (r: seq<Token>)
    ensures |r| == |tokens|
    ensures forall j :: 0 <= j < |tokens| ==> r[j] == tokens[j].(kind := ParenKind(tokens[j].kind))
  {
    if tokens == [] then [] else [tokens[0].(kind := ParenKind(tokens[0].kind))] + ParenOnly(tokens[1..])
  }

  /** Two token lists with their parens in the same places. */
  predicate SameParens(a: seq<Token>, b: seq<Token>) {
    |a| == |b| && forall j :: 0 <= j < |a| ==>
      (a[j].kind == LParen <==> b[j].kind == LParen) && (a[j].kind == RParen <==> b[j].kind == RParen)
  }

  /** No square or curly bracket among the tokens. */
  predicate HasOnlyParens(tokens: seq<Token>) {
    forall j :: 0 <= j < |tokens| ==> tokens[j].kind !in {LBracket, RBracket, LCurly, RCurly}
  }

  lemma {:induction false} LegacyScanSameParens(a: seq<Token>, b: seq<Token>, i: nat, parens: int)
    requires i < |a| && SameParens(a, b)
    ensures LegacyScanFrom(a, i, parens) == LegacyScanFrom(b, i, parens)
    decreases |a| - i
  {
    var j := |a| - 1 - i;
    var ka, kb := a[j].kind, b[j].kind;
    assert (ka == LParen <==> kb == LParen) && (ka == RParen <==> kb == RParen);
    assert LegacyNext(ka, parens) == LegacyNext(kb, parens);
    if !(ka == LParen && parens == 0) && i + 1 < |a| {
      LegacyScanSameParens(a, b, i + 1, LegacyNext(ka, parens));
    }
  }

  /** Token lists with the same parens at the same columns get the same
      legacy indent. */
  lemma LegacyIndentSameParens(a: seq<Token>, b: seq<Token>)
    requires |a| > 0 && SameParens(a, b)
    requires forall j :: 0 <= j < |a| ==> a[j].colno == b[j].colno
    ensures LegacyColumnIndent(a) == LegacyColumnIndent(b)
  {
    LegacyScanSameParens(a, b, 0, 0);
  }

  /** Only `(` and `)` matter to the legacy indenter: blanking out every other
      kind of token, square and curly brackets included, keeps the indent. */
  lemma LegacyIndentSeesOnlyParens(tokens: seq<Token>)
    requires |tokens| > 0
    ensures LegacyColumnIndent(tokens) == LegacyColumnIndent(ParenOnly(tokens))
  {
    var p := ParenOnly(tokens);
    forall j | 0 <= j < |tokens|
      ensures (tokens[j].kind == LParen <==> p[j].kind == LParen) && (tokens[j].kind == RParen <==> p[j].kind == RParen)
      ensures tokens[j].colno == p[j].colno
    {
      assert p[j] == tokens[j].(kind := ParenKind(tokens[j].kind));
    }
    LegacyIndentSameParens(tokens, p);
  }

  lemma {:induction false} LegacyScanAgrees(tokens: seq<Token>, i: nat, parens: int)
    requires i < |tokens| && HasOnlyParens(tokens)
    ensures LegacyScanFrom(tokens, i, parens) == ScanFrom(tokens, i, Counts(parens, 0, 0))
    decreases |tokens| - i
  {
    var k := tokens[|tokens| - 1 - i].kind;
    assert k !in {LBracket, RBracket, LCurly, RCurly};
    if !(k == LParen && parens == 0) && i + 1 < |tokens| {
      var next := LegacyNext(k, parens);
      assert StepBack(k, Counts(parens, 0, 0)) == Go(Counts(next, 0, 0));
      assert ScanFrom(tokens, i, Counts(parens, 0, 0)) == ScanFrom(tokens, i + 1, Counts(next, 0, 0));
      LegacyScanAgrees(tokens, i + 1, next);
    }
  }

  /** Where the legacy scan stops fixes both the current sexp and the legacy
      indent, whenever the two scans stop at the same place. */
  lemma LegacyIndentFromStart(tokens: seq<Token>, i: nat)
    requires |tokens| > 0 && i == LegacyScanFrom(tokens, 0, 0) && SexpStart(tokens) == |tokens| - i
    ensures var s := CurrentSexp(tokens);
            && (|s| == 0 ==> LegacyColumnIndent(tokens) == tokens[|tokens| - 1].colno)
            && (|s| == 1 ==> LegacyColumnIndent(tokens) == Col0(s[0]))
            && (|s| > 1 ==> LegacyColumnIndent(tokens) == Col0(s[1]))
  {
    var n := |tokens|;
    var s := CurrentSexp(tokens);
    assert s == tokens[n - i..];
    if i == 1 {
      assert s[0] == tokens[n - 1];
    } else if i > 1 {
      assert s[1] == tokens[n - i + 1];
    }
  }

  /** On tokens with parens only, the legacy indent is read off the current
      sexp: its second token's column, or its only token's; an empty sexp
      gives the last token's 1-based column. */
  lemma LegacyIndentBySexp(tokens: seq<Token>)
    requires |tokens| > 0 && HasOnlyParens(tokens)
    ensures var s := CurrentSexp(tokens);
            && (|s| == 0 ==> LegacyColumnIndent(tokens) == tokens[|tokens| - 1].colno)
            && (|s| == 1 ==> LegacyColumnIndent(tokens) == Col0(s[0]))
            && (|s| > 1 ==> LegacyColumnIndent(tokens) == Col0(s[1]))
  {
    LegacyScanAgrees(tokens, 0, 0);
    var i := LegacyScanFrom(tokens, 0, 0);
    assert i == ScanFrom(tokens, 0, Zero);
    LegacyIndentFromStart(tokens, i);
  }

  /** On tokens with parens only, the legacy indenter agrees with the current
      one whenever the current sexp is a lone token or an ordinary call: both
      stop the scan at the same `(`. */
  lemma LegacyIndentAgrees(tokens: seq<Token>, cursorCol: nat, reg: Registry)
    requires |tokens| > 0 && HasOnlyParens(tokens)
    requires var s := CurrentSexp(tokens);
             |s| == 1 || (|s| > 1 && s[0].kind != LParen && !IsSpecialForm(reg, s[0].value))
    ensures LegacyColumnIndent(tokens) == ColumnIndent(CurrentSexp(tokens), cursorCol, reg)
  {
    LegacyIndentBySexp(tokens);
  }

  /** Right after a `(` the legacy indent is that paren's 1-based column,
      where the current indenter keeps the cursor's column. */
  lemma LegacyIndentAfterOpenParen(tokens: seq<Token>)
    requires |tokens| > 0 && tokens[|tokens| - 1].kind == LParen
    ensures LegacyColumnIndent(tokens) == tokens[|tokens| - 1].colno
  {
  }

  /** main.py's `src_is_multiline`: the buffer is multi-line when tokenizing
      its text raises a lexer error, or when the text lexes and has a newline. */
  predicate SrcIsMultiline(text: string, lexFails: bool) {
    if lexFails then true else '\n' in text
  }

  /** The buffer after the multi-line handler's test `at_the_end(b) and
      b.validate()`. `validate` runs only when the cursor is at the end; when
      it fails, prompt_toolkit moves the cursor to the error's index, and
      `HyValidator` (main.py:36-52) always gives the length of the text. */
  function AfterValidate(b: Buffer, valid: bool): (r: Buffer)
    requires b.Valid()
    ensures r.Valid() && r.text == b.text
  {
    if AtTheEnd(b) && !valid then Buffer(b.text, |b.text|) else b
  }

  /** The multi-line Enter handler of main.py: accept, stripped and with the
      cursor at the end, when the cursor is at the end and the buffer
      validates; otherwise insert a newline indented by the legacy indenter,
      at the end of the text when a failed validation moved the cursor there.
      `upTo` is the lexer's output for `ScanText(AfterValidate(b, valid))`. */
  function LegacyEnterMultiline(b: Buffer, valid: bool, upTo: seq<Token>): (r: Outcome)
    requires b.Valid()
    requires !(AtTheEnd(b) && valid) ==> |upTo| > 0
    ensures r.Submit? <==> valid && forall j :: b.cursor <= j < |b.text| ==> IsSpace(b.text[j]) && b.text[j] != '\n'
    ensures r.Submit? ==> r.buffer.text == RStrip(b.Before()) && r.buffer.cursor == |r.buffer.text|
    ensures r.Continue? && !AtTheEnd(b) ==>
              && r.buffer.Valid()
              && r.buffer.Before() == b.Before() + "\n" + Spaces(LegacyColumnIndent(upTo))
              && r.buffer.After() == b.After()
    ensures r.Continue? && AtTheEnd(b) ==>
              && r.buffer.text == b.text + "\n" + Spaces(LegacyColumnIndent(upTo))
              && r.buffer.cursor == |r.buffer.text|
    ensures r.Continue? ==>
              var n := LegacyColumnIndent(upTo);
              r.buffer.Valid() && CursorCol(r.buffer) == if n > 0 then n else 0
  {
    if AtTheEnd(b) && valid then
      AtTheEndStripsOnlyAfter(b);
      Submit(Buffer(RStrip(b.text), |RStrip(b.text)|))
    else
      var m := AfterValidate(b, valid);
      NewlineColumn(m, LegacyColumnIndent(upTo));
      InsertAtEnd(m, LegacyColumnIndent(upTo));
      Continue(InsertNewline(m, LegacyColumnIndent(upTo)))
  }

  /** With the cursor at the end of the text, the new line goes at the end
      and the cursor stays there. */
  lemma InsertAtEnd(b: Buffer, spaces: int)
    requires b.Valid()
    ensures b.cursor == |b.text| ==>
              var r := InsertNewline(b, spaces);
              r.text == b.text + "\n" + Spaces(spaces) && r.cursor == |r.text|
  {
    var r := InsertNewline(b, spaces);
    assert r.text == r.Before() + r.After();
  }

  /** The single-line Enter handler of main.py: accept whenever the cursor is
      at the end, without lexing or validating first. */
  function LegacyEnterSingleLine(b: Buffer, upTo: seq<Token>): (r: Outcome)
    requires b.Valid()
    requires !AtTheEnd(b) ==> |upTo| > 0
    ensures r.Submit? <==> forall j :: b.cursor <= j < |b.text| ==> IsSpace(b.text[j]) && b.text[j] != '\n'
    ensures r.Submit? ==> r.buffer == b
    ensures r.Continue? ==>
              var n := LegacyColumnIndent(upTo);
              && r.buffer.Valid()
              && r.buffer.Before() == b.Before() + "\n" + Spaces(n)
              && r.buffer.After() == b.After()
              && CursorCol(r.buffer) == if n > 0 then n else 0
  {
    if AtTheEnd(b) then Submit(b)
    else
      NewlineColumn(b, LegacyColumnIndent(upTo));
      Continue(InsertNewline(b, LegacyColumnIndent(upTo)))
  }

  /** main.py's single-line handler against the package's: whenever the text
      lexes they accept on the same key presses and hand over the same
      buffer, and at the end of a text that does not lex main.py accepts
      where the package opens a new line. */
  lemma SingleLineHandlersCompared(b: Buffer, lexes: bool, before: seq<Token>, upTo: seq<Token>, reg: Registry)
    requires b.Valid() && |before| > 0 && |upTo| > 0
    ensures var legacy := LegacyEnterSingleLine(b, upTo);
            var current := EnterSingleLine(b, lexes, before, reg);
            && (lexes ==> (legacy.Submit? <==> current.Submit?))
            && (legacy.Submit? && current.Submit? ==> legacy.buffer == current.buffer)
            && (AtTheEnd(b) && !lexes ==> legacy.Submit? && current.Continue?)
  {
  }

  /** Enter in main.py's REPL: the multi-line test picks the handler. The
      single-line handler's missing lex check is covered by the test, since a
      single-line buffer is one that lexes and has no newline. */
  function LegacyEnter(b: Buffer, lexFails: bool, valid: bool, upTo: seq<Token>): (r: Outcome)
    requires b.Valid()
    requires !(AtTheEnd(b) && (SrcIsMultiline(b.text, lexFails) ==> valid)) ==> |upTo| > 0
    ensures r.Submit? <==> AtTheEnd(b) && (lexFails || '\n' in b.text ==> valid)
    ensures r.Submit? && !valid ==> r.buffer == b && !lexFails && '\n' !in b.text
    ensures r.Continue? && !AtTheEnd(b) ==> r.buffer == InsertNewline(b, LegacyColumnIndent(upTo))
    ensures r.Continue? && AtTheEnd(b) ==>
              && r.buffer.text == b.text + "\n" + Spaces(LegacyColumnIndent(upTo))
              && r.buffer.cursor == |r.buffer.text|
  {
    if SrcIsMultiline(b.text, lexFails) then LegacyEnterMultiline(b, valid, upTo)
    else LegacyEnterSingleLine(b, upTo)
  }

  /** Through the multi-line test, main.py's Enter on a single-line buffer
      accepts exactly where the package's single-line handler does and hands
      over the same buffer: the difference `SingleLineHandlersCompared` shows
      for text that does not lex never reaches main.py's single-line handler. */
  lemma SingleLineDispatchAgrees(b: Buffer, lexFails: bool, valid: bool, before: seq<Token>,
                                 upTo: seq<Token>, reg: Registry)
    requires b.Valid() && |before| > 0 && |upTo| > 0
    requires !SrcIsMultiline(b.text, lexFails)
    ensures var legacy := LegacyEnter(b, lexFails, valid, upTo);
            var current := EnterSingleLine(b, !lexFails, before, reg);
            && (legacy.Submit? <==> current.Submit?)
            && (legacy.Submit? ==> legacy.buffer == current.buffer)
  {
  }
}

=== FILE: ordering.dfy ===
/**
  The order completions are shown in: `sorted` with the key `compare_fun` of
  pthy/completer.py, which ranks a completion by whether its text starts with
  "--", then whether it starts with "-", then its case-folded text. Python
  compares the key tuples field by field with `False < True`, and strings by
  code point, a proper prefix first. `sorted` is stable.
 */
module Ordering {

  /** A completion: the text to insert and where, relative to the cursor, the
      replaced text starts. */
  datatype Completion = Completion(text: string, start: int)

  /** Python's `a <= b` on strings. */
  predicate StrLe(a: string, b: string) {
    a == [] || (b != [] && (a[0] < b[0] || (a[0] == b[0] && StrLe(a[1..], b[1..]))))
  }

  lemma {:induction false} StrLeTotal(a: string, b: string)
    ensures StrLe(a, b) || StrLe(b, a)
  {
    if a != [] && b != [] && a[0] == b[0] {
      StrLeTotal(a[1..], b[1..]);
    }
  }

  lemma {:induction false} StrLeTransitive(a: string, b: string, c: string)
    requires StrLe(a, b) && StrLe(b, c)
    ensures StrLe(a, c)
  {
    if a != [] && a[0] == b[0] && b[0] == c[0] {
      StrLeTransitive(a[1..], b[1..], c[1..]);
    }
  }

  /** `compare_fun(x)`: the case-folding `lower` is a parameter. */
  datatype SortKey = SortKey(doubleDash: bool, dash: bool, folded: string)

  function Key(c: Completion, lower: string -> string): (k: SortKey)
    ensures k.doubleDash ==> k.dash
    ensures Group(c.text) == if k.doubleDash then 2 else if k.dash then 1 else 0
  {
    SortKey("--" <= c.text, "-" <= c.text, lower(c.text))
  }

  /** Tuple comparison of two keys, `False` before `True`. */
  predicate KeyLe(a: SortKey, b: SortKey) {
    if a.doubleDash != b.doubleDash then !a.doubleDash
    else if a.dash != b.dash then !a.dash
    else StrLe(a.folded, b.folded)
  }

  lemma KeyLeTotal(a: SortKey, b: SortKey)
    ensures KeyLe(a, b) || KeyLe(b, a)
  {
    StrLeTotal(a.folded, b.folded);
  }

  lemma KeyLeTransitive(a: SortKey, b: SortKey, c: SortKey)
    requires KeyLe(a, b) && KeyLe(b, c)
    ensures KeyLe(a, c)
  {
    if a.doubleDash == c.doubleDash && a.dash == c.dash {
      StrLeTransitive(a.folded, b.folded, c.folded);
    }
  }

  /** The three groups: 0 for no leading dash, 1 for one, 2 for two or more. */
  function Group(text: string): (g: nat)
    ensures g == 0 <==> !("-" <= text)
    ensures g == 2 <==> "--" <= text
    ensures g <= 2
  {
    if "--" <= text then 2 else if "-" <= text then 1 else 0
  }

  predicate Sorted(cs: seq<Completion>, lower: string -> string) {
    forall i, j :: 0 <= i < j < |cs| ==> KeyLe(Key(cs[i], lower), Key(cs[j], lower))
  }

  /** `[c]` when `c`'s key is `k`, else nothing. */
  function Pick(c: Completion, k: SortKey, lower: string -> string): seq<Completion> {
    if Key(c, lower) == k then [c] else []
  }

  /** The completions whose key is `k`, in order. */
  function WithKey(cs: seq<Completion>, k: SortKey, lower: string -> string): (r: seq<Completion>)
    ensures forall i :: 0 <= i < |r| ==> Key(r[i], lower) == k
  {
    if cs == [] then [] else Pick(cs[0], k, lower) + WithKey(cs[1..], k, lower)
  }

  lemma WithKeyCons(c: Completion, cs: seq<Completion>, k: SortKey, lower: string -> string)
    ensures WithKey([c] + cs, k, lower) == Pick(c, k, lower) + WithKey(cs, k, lower)
  {
    assert ([c] + cs)[1..] == cs;
  }

  /** Insert `x` before the first element whose key is not below `x`'s, so
      that `x` precedes the elements its key ties with. */
  function Insert(x: Completion, s: seq<Completion>, lower: string -> string): (r: seq<Completion>)
    ensures |r| == |s| + 1
    ensures multiset(r) == multiset([x] + s)
  {
    if s == [] || KeyLe(Key(x, lower), Key(s[0], lower)) then [x] + s
    else
      assert s == [s[0]] + s[1..];
      [s[0]] + Insert(x, s[1..], lower)
  }

  lemma {:induction false} InsertSorted(x: Completion, s: seq<Completion>, lower: string -> string)
    requires Sorted(s, lower)
    ensures Sorted(Insert(x, s, lower), lower)
  {
    var kx := Key(x, lower);
    if s == [] {
    } else if KeyLe(kx, Key(s[0], lower)) {
      forall j | 0 < j < |s| + 1
        ensures KeyLe(kx, Key(([x] + s)[j], lower))
      {
        if j > 1 {
          KeyLeTransitive(kx, Key(s[0], lower), Key(s[j - 1], lower));
        }
      }
    } else {
      KeyLeTotal(kx, Key(s[0], lower));
      InsertSorted(x, s[1..], lower);
      var t := Insert(x, s[1..], lower);
      assert multiset(t) == multiset([x] + s[1..]);
      forall j | 0 <= j < |t|
        ensures KeyLe(Key(s[0], lower), Key(t[j], lower))
      {
        assert t[j] in multiset([x] + s[1..]);
        assert t[j] == x || t[j] in s[1..];
      }
    }
  }

  /** Two completions with different keys can trade places without changing
      any key's subsequence. */
  lemma SwapWithKey(x: Completion, s0: Completion, rest: seq<Completion>, t: seq<Completion>,
                    k: SortKey, lower: string -> string)
    requires Key(x, lower) != Key(s0, lower)
    requires WithKey(t, k, lower) == WithKey([x] + rest, k, lower)
    ensures WithKey([s0] + t, k, lower) == WithKey([x] + ([s0] + rest), k, lower)
  {
    var p0, px, w := Pick(s0, k, lower), Pick(x, k, lower), WithKey(rest, k, lower);
    assert p0 == [] || px == [];
    WithKeyCons(x, rest, k, lower);
    WithKeyCons(s0, t, k, lower);
    WithKeyCons(s0, rest, k, lower);
    WithKeyCons(x, [s0] + rest, k, lower);
    assert p0 + (px + w) == px + (p0 + w);
  }

  /** Inserting keeps the relative order of every group of equal keys. */
  lemma {:induction false} InsertWithKey(x: Completion, s: seq<Completion>, k: SortKey, lower: string -> string)
    ensures WithKey(Insert(x, s, lower), k, lower) == WithKey([x] + s, k, lower)
  {
    var kx := Key(x, lower);
    if s != [] && !KeyLe(kx, Key(s[0], lower)) {
      var s0, rest := s[0], s[1..];
      KeyLeTotal(kx, kx);
      InsertWithKey(x, rest, k, lower);
      SwapWithKey(x, s0, rest, Insert(x, rest, lower), k, lower);
      assert s == [s0] + rest;
    }
  }

  /** `sorted(cs, key=compare_fun)`, as a stable insertion sort. */
  function Sort(cs: seq<Completion>, lower: string -> string): (r: seq<Completion>)
    ensures |r| == |cs|
    ensures multiset(r) == multiset(cs)
  {
    if cs == [] then []
    else
      assert cs == [cs[0]] + cs[1..];
      Insert(cs[0], Sort(cs[1..], lower), lower)
  }

  /** The sort orders by key and is stable: a permutation of its input that is
      sorted, and in which the completions of any one key keep their input
      order. */
  lemma {:induction false} SortCorrect(cs: seq<Completion>, lower: string -> string)
    ensures Sorted(Sort(cs, lower), lower)
    ensures multiset(Sort(cs, lower)) == multiset(cs)
    ensures forall k :: WithKey(Sort(cs, lower), k, lower) == WithKey(cs, k, lower)
  {
    if cs != [] {
      SortCorrect(cs[1..], lower);
      InsertSorted(cs[0], Sort(cs[1..], lower), lower);
      forall k
        ensures WithKey(Sort(cs, lower), k, lower) == WithKey(cs, k, lower)
      {
        SortStep(cs, k, lower);
      }
    }
  }

  /** One insertion keeps each key's subsequence, given that the sort of the
      tail already does. */
  lemma SortStep(cs: seq<Completion>, k: SortKey, lower: string -> string)
    requires cs != []
    requires WithKey(Sort(cs[1..], lower), k, lower) == WithKey(cs[1..], k, lower)
    ensures WithKey(Sort(cs, lower), k, lower) == WithKey(cs, k, lower)
  {
    var x, rest := cs[0], cs[1..];
    assert Sort(cs, lower) == Insert(x, Sort(rest, lower), lower);
    assert WithKey(cs, k, lower) == Pick(x, k, lower) + WithKey(rest, k, lower);
    InsertKeepsWithKey(x, rest, Sort(rest, lower), k, lower);
  }

  /** Inserting into a sorted tail that keeps each key's subsequence keeps it too. */
  lemma InsertKeepsWithKey(x: Completion, rest: seq<Completion>, sorted: seq<Completion>,
                           k: SortKey, lower: string -> string)
    requires WithKey(sorted, k, lower) == WithKey(rest, k, lower)
    ensures WithKey(Insert(x, sorted, lower), k, lower) == Pick(x, k, lower) + WithKey(rest, k, lower)
  {
    InsertWithKey(x, sorted, k, lower);
    WithKeyCons(x, sorted, k, lower);
  }

  /** What the order means: no-dash names first, then single-dash names, then
      double-dash names, and within a group by case-folded text. */
  lemma SortedGroups(cs: seq<Completion>, lower: string -> string, i: nat, j: nat)
    requires Sorted(cs, lower) && i < j < |cs|
    ensures Group(cs[i].text) <= Group(cs[j].text)
    ensures Group(cs[i].text) == Group(cs[j].text) ==> StrLe(lower(cs[i].text), lower(cs[j].text))
  {
    assert KeyLe(Key(cs[i], lower), Key(cs[j], lower));
  }
}

=== FILE: registry.dfy ===
/**
  The compiler's name registries, which the REPL reads but does not own:
  the macro table (one namespace of macro names per defining module, the
  global namespace keyed by `None`), the standard-library names and the
  compile table of built-in forms. They are passed in as values; their order
  is the order in which the source iterates them.
 */
module Registry {

  /** The key of a macro namespace: the global one (`None`) or a module's. */
  datatype ModuleKey = Global | Module(name: string)

  datatype Namespace = Namespace(key: ModuleKey, names: seq<string>)

  /** `_hy_macros`, `_stdlib` and `_compile_table`; a compile-table key is
      represented by its `str()`. */
  datatype Registry = Registry(macros: seq<Namespace>, stdlib: seq<string>, compileTable: seq<string>)

  /** A macro defined in the global (`None`) namespace. */
  predicate IsGlobalMacro(reg: Registry, name: string) {
    exists k :: 0 <= k < |reg.macros| && reg.macros[k].key == Global && name in reg.macros[k].names
  }

  /** A name the indenter treats as a special form: a global macro, or a
      compile-table name longer than one character. */
  predicate IsSpecialForm(reg: Registry, name: string) {
    IsGlobalMacro(reg, name) || (name in reg.compileTable && |name| > 1)
  }
}

=== FILE: sexp.dfy ===
/**
  The current-sexp extractor of pthy/utils.py: scan the tokens before the
  cursor from right to left with three bracket counters and return the tokens
  after the opener that stops the scan.

  The scan is given twice: `ScanFrom` is a recursive reference definition,
  and `GetTokensInCurrentSexp` is the loop as the source writes it, proved to
  compute the same suffix. `SexpStartSpec` characterises the result without
  mentioning the scan at all, through the net bracket count `Tally` of the
  tokens after a position.
 */
module Sexp {
  import opened Tokens

  /** The three counters of the scan: paren, square bracket, curly brace. */
  datatype Counts = Counts(paren: int, square: int, curly: int)

  const Zero := Counts(0, 0, 0)

  function Add(a: Counts, b: Counts): Counts {
    Counts(a.paren + b.paren, a.square + b.square, a.curly + b.curly)
  }

  /** What one token adds to the counters: +1 to its kind for a closer,
      -1 for an opener, nothing for any other token. */
  function Delta(k: Kind): Counts {
    match k
    case RParen => Counts(1, 0, 0)
    case LParen => Counts(-1, 0, 0)
    case RBracket => Counts(0, 1, 0)
    case LBracket => Counts(0, -1, 0)
    case RCurly => Counts(0, 0, 1)
    case LCurly => Counts(0, 0, -1)
    case _ => Zero
  }

  /** Closers minus openers of each kind in `tokens[from..]`. */
  function Tally(tokens: seq<Token>, from: nat): Counts
    decreases |tokens| - from
  {
    if from >= |tokens| then Zero else Add(Delta(tokens[from].kind), Tally(tokens, from + 1))
  }

  datatype Step = Stop | Go(counts: Counts)

  /** One step of the scan on a token of kind `k`. Any opener stops the scan
      as soon as the paren and square counters are zero, whatever the curly
      counter holds; an opener that does not stop decrements its own counter,
      which may take it below zero; non-bracket tokens change nothing. */
  function StepBack(k: Kind, c: Counts): (s: Step)
    ensures s.Stop? <==> IsOpener(k) && c.paren == 0 && c.square == 0
    ensures s.Go? ==> s.counts == Add(Delta(k), c)
    ensures !IsOpener(k) && !IsCloser(k) ==> s == Go(c)
  {
    match k
    case RParen => Go(c.(paren := c.paren + 1))
    case RBracket => Go(c.(square := c.square + 1))
    case RCurly => Go(c.(curly := c.curly + 1))
    case LParen | LBracket | LCurly =>
      // the source tests the square counter twice and the curly one never
      if c.paren == 0 && c.square == 0 && c.square == 0 then Stop
      else if k == LParen then Go(c.(paren := c.paren - 1))
      else if k == LBracket then Go(c.(square := c.square - 1))
      else Go(c.(curly := c.curly - 1))
    case _ => Go(c)
  }

  /** The scan from reverse index `i` (the token `tokens[|tokens| - 1 - i]`)
      with counters `c`: the reverse index the scan ends on, either the one
      whose opener stopped it or the last one, `|tokens| - 1`. */
  function ScanFrom(tokens: seq<Token>, i: nat, c: Counts): (r: nat)
    requires i < |tokens|
    ensures i <= r < |tokens|
    decreases |tokens| - i
  {
    match StepBack(tokens[|tokens| - 1 - i].kind, c)
    case Stop => i
    case Go(next) => if i + 1 == |tokens| then i else ScanFrom(tokens, i + 1, next)
  }

  /** Where the current sexp starts: `len(tokens) - i` in the source. */
  function SexpStart(tokens: seq<Token>): (k: nat)
    requires |tokens| > 0
    ensures 1 <= k <= |tokens|
  {
    |tokens| - ScanFrom(tokens, 0, Zero)
  }

  /** `get_tokens_in_current_sexp` on the lexed text before the cursor: a
      suffix of the tokens that never holds the first token. The source
      fails on an empty token list (its loop variable is never bound). */
  function CurrentSexp(tokens: seq<Token>): (r: seq<Token>)
    requires |tokens| > 0
    ensures |r| < |tokens|
    ensures r == tokens[|tokens| - |r|..]
  {
    tokens[SexpStart(tokens)..]
  }

  /** The opener at `q` stops a scan that reaches it without stopping
      earlier: the tokens after it leave the paren and square counters at zero. */
  predicate StopsAt(tokens: seq<Token>, q: nat)
    requires q < |tokens|
  {
    IsOpener(tokens[q].kind) && Tally(tokens, q + 1).paren == 0 && Tally(tokens, q + 1).square == 0
  }

  /** A scan that has reached position `q` carries the tally of the tokens
      after `q`; the step there stops exactly when `StopsAt` holds. */
  lemma StepBackAt(tokens: seq<Token>, q: nat)
    requires q < |tokens|
    ensures StepBack(tokens[q].kind, Tally(tokens, q + 1))
            == if StopsAt(tokens, q) then Stop else Go(Tally(tokens, q))
  {
  }

  /** One step of the reference scan, phrased with tallies. */
  lemma ScanFromStep(tokens: seq<Token>, i: nat)
    requires i < |tokens|
    ensures ScanFrom(tokens, i, Tally(tokens, |tokens| - i))
            == if StopsAt(tokens, |tokens| - 1 - i) || i + 1 == |tokens| then i
               else ScanFrom(tokens, i + 1, Tally(tokens, |tokens| - (i + 1)))
  {
    StepBackAt(tokens, |tokens| - 1 - i);
  }

  /** The scan ends on a stopping opener or on the first token. */
  lemma {:induction false} ScanFromEndsAtStop(tokens: seq<Token>, i: nat)
    requires i < |tokens|
    ensures var r := ScanFrom(tokens, i, Tally(tokens, |tokens| - i));
            r == |tokens| - 1 || StopsAt(tokens, |tokens| - 1 - r)
    decreases |tokens| - i
  {
    var r := ScanFrom(tokens, i, Tally(tokens, |tokens| - i));
    ScanFromStep(tokens, i);
    if StopsAt(tokens, |tokens| - 1 - i) || i + 1 == |tokens| {
      assert r == i;
    } else {
      var r' := ScanFrom(tokens, i + 1, Tally(tokens, |tokens| - (i + 1)));
      assert r == r';
      ScanFromEndsAtStop(tokens, i + 1);
      assert r' == |tokens| - 1 || StopsAt(tokens, |tokens| - 1 - r');
    }
  }

  /** A scan that goes on past reverse index `i` ends where the scan from the
      next index does. */
  lemma ScanFromContinues(tokens: seq<Token>, i: nat)
    requires i < |tokens|
    requires ScanFrom(tokens, i, Tally(tokens, |tokens| - i)) > i
    ensures i + 1 < |tokens|
    ensures ScanFrom(tokens, i, Tally(tokens, |tokens| - i)) == ScanFrom(tokens, i + 1, Tally(tokens, |tokens| - (i + 1)))
  {
    ScanFromStep(tokens, i);
  }

  /** The scan passes no stopping opener on its way: a scan from reverse
      index `i` that ends on reverse index `r` saw no stop in between. */
  lemma {:induction false} ScanFromSkipsNoStop(tokens: seq<Token>, i: nat, r: nat, q: nat)
    requires i < |tokens| && r == ScanFrom(tokens, i, Tally(tokens, |tokens| - i))
    requires |tokens| - 1 - r < q <= |tokens| - 1 - i
    ensures !StopsAt(tokens, q)
    decreases |tokens| - i
  {
    if q == |tokens| - 1 - i {
      assert Tally(tokens, |tokens| - i) == Tally(tokens, q + 1);
      assert tokens[|tokens| - 1 - i] == tokens[q];
      StepBackAt(tokens, q);
    } else {
      ScanFromContinues(tokens, i);
      ScanFromSkipsNoStop(tokens, i + 1, r, q);
    }
  }

  /** The current sexp starts right after the last opener whose following
      tokens balance parens and square brackets, or at the second token when
      no later position stops the scan. */
  lemma SexpStartSpec(tokens: seq<Token>)
    requires |tokens| > 0
    ensures var k := SexpStart(tokens);
            && (k == 1 || StopsAt(tokens, k - 1))
            && forall q :: k <= q < |tokens| ==> !StopsAt(tokens, q)
  {
    ScanFromEndsAtStop(tokens, 0);
    var r := ScanFrom(tokens, 0, Tally(tokens, |tokens|));
    assert SexpStart(tokens) == |tokens| - r;
    forall q | SexpStart(tokens) <= q < |tokens|
      ensures !StopsAt(tokens, q)
    {
      ScanFromSkipsNoStop(tokens, 0, r, q);
    }
  }

  /** `SexpStartSpec` pins the start down: no other position meets it. */
  lemma SexpStartUnique(tokens: seq<Token>, k: nat)
    requires 1 <= k <= |tokens|
    requires k == 1 || StopsAt(tokens, k - 1)
    requires forall q :: k <= q < |tokens| ==> !StopsAt(tokens, q)
    ensures SexpStart(tokens) == k
  {
    SexpStartSpec(tokens);
  }

  /** When an opener stops the scan, the result starts immediately after it
      and does not include it. */
  lemma SexpAfterInnermostOpener(tokens: seq<Token>, q: nat)
    requires q < |tokens|
    requires StopsAt(tokens, q)
    requires forall q' :: q < q' < |tokens| ==> !StopsAt(tokens, q')
    ensures CurrentSexp(tokens) == tokens[q + 1..]
    ensures |CurrentSexp(tokens)| == |tokens| - q - 1
  {
    SexpStartUnique(tokens, q + 1);
  }

  /** A scan that never stops after the first token returns every token but
      the first, even for a balanced top-level form. */
  lemma SexpWithoutStop(tokens: seq<Token>)
    requires |tokens| > 0
    requires forall q :: 1 <= q < |tokens| ==> !StopsAt(tokens, q)
    ensures CurrentSexp(tokens) == tokens[1..]
  {
    SexpStartUnique(tokens, 1);
  }

  /** If the last token before the cursor is an opener of any kind, the
      current sexp is empty. */
  lemma SexpEmptyAfterOpener(tokens: seq<Token>)
    requires |tokens| > 0
    requires IsOpener(tokens[|tokens| - 1].kind)
    ensures CurrentSexp(tokens) == []
  {
    assert StopsAt(tokens, |tokens| - 1);
    SexpAfterInnermostOpener(tokens, |tokens| - 1);
  }

  /** An opener followed by a single token that moves neither the paren nor
      the square counter stops the scan: the current sexp is that one token. */
  lemma OpenerThenOne(tokens: seq<Token>)
    requires |tokens| >= 2
    requires IsOpener(tokens[|tokens| - 2].kind) && !IsOpener(tokens[|tokens| - 1].kind)
    requires Delta(tokens[|tokens| - 1].kind).paren == 0 && Delta(tokens[|tokens| - 1].kind).square == 0
    ensures CurrentSexp(tokens) == [tokens[|tokens| - 1]]
  {
    StopBeforeLast(tokens);
    assert !StopsAt(tokens, |tokens| - 1);
    StartBeforeLast(tokens);
    SexpFromStart(tokens, |tokens| - 1);
    LastSlice(tokens);
  }

  /** The opener right before the last token stops the scan when that token
      leaves the paren and square counters at zero. */
  lemma StopBeforeLast(tokens: seq<Token>)
    requires |tokens| >= 2
    requires IsOpener(tokens[|tokens| - 2].kind)
    requires Delta(tokens[|tokens| - 1].kind).paren == 0 && Delta(tokens[|tokens| - 1].kind).square == 0
    ensures StopsAt(tokens, |tokens| - 2)
  {
    var n := |tokens|;
    assert Tally(tokens, n) == Zero;
    assert Tally(tokens, n - 1) == Add(Delta(tokens[n - 1].kind), Tally(tokens, n));
  }

  lemma StartBeforeLast(tokens: seq<Token>)
    requires |tokens| >= 2
    requires StopsAt(tokens, |tokens| - 2) && !StopsAt(tokens, |tokens| - 1)
    ensures SexpStart(tokens) == |tokens| - 1
  {
    forall q | |tokens| - 1 <= q < |tokens|
      ensures !StopsAt(tokens, q)
    {
      assert q == |tokens| - 1;
    }
    SexpStartUnique(tokens, |tokens| - 1);
  }

  lemma SexpFromStart(tokens: seq<Token>, k: nat)
    requires |tokens| > 0 && SexpStart(tokens) == k
    ensures CurrentSexp(tokens) == tokens[k..]
  {
  }

  lemma LastSlice(tokens: seq<Token>)
    requires |tokens| > 0
    ensures tokens[|tokens| - 1..] == [tokens[|tokens| - 1]]
  {
  }

  /** The curly counter is never tested: a closed `{ }` pair right before the
      cursor stops the scan at its own `{`, so the current sexp is just the
      `}`, although the braces balance. */
  lemma ClosedCurlyStops(tokens: seq<Token>)
    requires |tokens| >= 2
    requires tokens[|tokens| - 2].kind == LCurly && tokens[|tokens| - 1].kind == RCurly
    ensures CurrentSexp(tokens) == [tokens[|tokens| - 1]]
  {
    assert Delta(tokens[|tokens| - 1].kind) == Counts(0, 0, 1);
    OpenerThenOne(tokens);
  }

  /** The reference scan takes one step past a token that does not stop it. */
  lemma ScanFromGo(tokens: seq<Token>, i: nat, c: Counts, next: Counts)
    requires i + 1 < |tokens|
    requires StepBack(tokens[|tokens| - 1 - i].kind, c) == Go(next)
    ensures ScanFrom(tokens, i, c) == ScanFrom(tokens, i + 1, next)
  {
  }

  /** The reference scan ends where a token stops it or the tokens run out. */
  lemma ScanFromEnds(tokens: seq<Token>, i: nat, c: Counts)
    requires i < |tokens|
    requires StepBack(tokens[|tokens| - 1 - i].kind, c).Stop? || i + 1 == |tokens|
    ensures ScanFrom(tokens, i, c) == i
  {
  }

  /** The body of the source's loop for one token: the counters after the
      token, or a request to break out of the loop. */
  method StepCounts(kind: Kind, counts: Counts) returns (stop: bool, next: Counts)
    ensures stop <==> IsOpener(kind) && counts.paren == 0 && counts.square == 0
    ensures !stop ==> next == Add(Delta(kind), counts)
    ensures stop <==> StepBack(kind, counts).Stop?
    ensures !stop ==> StepBack(kind, counts) == Go(next)
  {
    stop, next := false, counts;
    if kind == RParen {
      next := counts.(paren := counts.paren + 1);
    } else if kind == RBracket {
      next := counts.(square := counts.square + 1);
    } else if kind == RCurly {
      next := counts.(curly := counts.curly + 1);
    } else if IsOpener(kind) {
      // as written: the square counter is tested twice, the curly one never
      if counts.paren == 0 && counts.square == 0 && counts.square == 0 {
        stop := true;
      } else if kind == LParen {
        next := counts.(paren := counts.paren - 1);
      } else if kind == LBracket {
        next := counts.(square := counts.square - 1);
      } else {
        next := counts.(curly := counts.curly - 1);
      }
    }
  }

  /** The extractor as the source writes it: a reverse `for` loop over the
      tokens that breaks at the stopping opener. */
  method GetTokensInCurrentSexp(tokens: seq<Token>) returns (sexp: seq<Token>)
    requires |tokens| > 0
    ensures sexp == CurrentSexp(tokens)
  {
    ghost var end := ScanFrom(tokens, 0, Zero);
    var counts := Zero;
    var i := 0;
    while true
      invariant i < |tokens|
      invariant ScanFrom(tokens, i, counts) == end
      decreases |tokens| - i
    {
      var stop, next := StepCounts(tokens[|tokens| - 1 - i].kind, counts);
      if stop || i + 1 == |tokens| {
        ScanFromEnds(tokens, i, counts);
        break;
      }
      ScanFromGo(tokens, i, counts, next);
      counts := next;
      i := i + 1;
    }
    sexp := tokens[|tokens| - i..];
  }
}

=== FILE: text.dfy ===
/**
  The Python string operations the REPL's heuristics rely on: `isspace`,
  `rstrip`, `replace("-", "_")`, `".".join` and its inverse `split(".")`.
 */
module Text {

  /** CPython's `str.isspace` for one character: the ASCII tab-to-return and
      file/group/record/unit separators, space, NEL, no-break space and the
      Unicode space separators, line and paragraph separators. */
  predicate IsSpace(c: char) {
    var n := c as int;
    || 9 <= n <= 13
    || 28 <= n <= 32
    || n == 0x85 || n == 0xA0 || n == 0x1680
    || 0x2000 <= n <= 0x200A
    || n == 0x2028 || n == 0x2029 || n == 0x202F || n == 0x205F || n == 0x3000
  }

  /** Every character of `s` is whitespace. */
  predicate AllSpace(s: string) {
    forall i :: 0 <= i < |s| ==> IsSpace(s[i])
  }

  /** `s.isspace()`: false for the empty string. */
  predicate IsSpaceString(s: string) {
    |s| > 0 && AllSpace(s)
  }

  /** `s.rstrip()`: the longest prefix of `s` that does not end in whitespace. */
  function RStrip(s: string): (r: string)
    ensures r <= s
    ensures r == [] || !IsSpace(r[|r| - 1])
    ensures forall i :: |r| <= i < |s| ==> IsSpace(s[i])
    decreases |s|
  {
    if s == [] || !IsSpace(s[|s| - 1]) then s else RStrip(s[..|s| - 1])
  }

  /** The three properties of `RStrip` determine its result. */
  lemma RStripUnique(s: string, r: string)
    requires r <= s
    requires r == [] || !IsSpace(r[|r| - 1])
    requires forall i :: |r| <= i < |s| ==> IsSpace(s[i])
    ensures r == RStrip(s)
  {
    var t := RStrip(s);
    assert r == s[..|r|] && t == s[..|t|];
  }

  lemma RStripIdempotent(s: string)
    ensures RStrip(RStrip(s)) == RStrip(s)
  {
    RStripUnique(RStrip(s), RStrip(s));
  }

  /** Whitespace after the last non-blank character does not change `rstrip`. */
  lemma RStripIgnoresTrailingSpace(s: string, w: string)
    requires AllSpace(w)
    ensures RStrip(s + w) == RStrip(s)
  {
    var r := RStrip(s);
    assert r <= s + w;
    forall i | |r| <= i < |s + w|
      ensures IsSpace((s + w)[i])
    {
      if i >= |s| {
        assert (s + w)[i] == w[i - |s|];
      }
    }
    RStripUnique(s + w, r);
  }

  /** `" " * n` as the source builds it, one space per `range(n)` step: a
      negative count inserts nothing. */
  function Spaces(n: int): (r: string)
    ensures |r| == if n > 0 then n else 0
    ensures forall i :: 0 <= i < |r| ==> r[i] == ' '
    decreases if n > 0 then n else 0
  {
    if n <= 0 then [] else [' '] + Spaces(n - 1)
  }

  /** `s.replace("-", "_")`. */
  function ReplaceHyphens(s: string): (r: string)
    ensures |r| == |s|
    ensures forall i :: 0 <= i < |s| ==> r[i] == if s[i] == '-' then '_' else s[i]
    ensures '-' !in r
  {
    if s == [] then [] else [if s[0] == '-' then '_' else s[0]] + ReplaceHyphens(s[1..])
  }

  /** Python's slice `s[k:]` for a non-negative `k`, which may lie past the end. */
  function Drop(s: string, k: nat): (r: string)
    ensures |r| == if k <= |s| then |s| - k else 0
    ensures forall i :: 0 <= i < |r| ==> r[i] == s[k + i]
  {
    if k <= |s| then s[k..] else []
  }

  /** `".".join(parts)`. */
  function JoinDot(parts: seq<string>): string {
    if |parts| == 0 then []
    else if |parts| == 1 then parts[0]
    else parts[0] + "." + JoinDot(parts[1..])
  }

  /** The position of the first `c` in `s`. */
  function IndexOf(s: string, c: char): (k: nat)
    requires c in s
    ensures k < |s| && s[k] == c
    ensures c !in s[..k]
  {
    if s[0] == c then 0 else
      assert c in s[1..];
      1 + IndexOf(s[1..], c)
  }

  /** The first `c` is the one with no `c` before it. */
  lemma {:induction false} IndexOfFirst(s: string, c: char, k: nat)
    requires k < |s| && s[k] == c && c !in s[..k]
    ensures IndexOf(s, c) == k
  {
    if k > 0 {
      assert s[0] == s[..k][0];
      assert s[1..][..k - 1] == s[..k][1..];
      IndexOfFirst(s[1..], c, k - 1);
    }
  }

  /** `s.split(".")`: always at least one part. */
  function SplitDot(s: string): (parts: seq<string>)
    ensures |parts| >= 1
    ensures forall i :: 0 <= i < |parts| ==> '.' !in parts[i]
    decreases |s|
  {
    if '.' !in s then [s]
    else
      var k := IndexOf(s, '.');
      [s[..k]] + SplitDot(s[k + 1..])
  }

  /** Joining the parts of a split gives the string back. */
  lemma {:induction false} JoinSplitDot(s: string)
    ensures JoinDot(SplitDot(s)) == s
    decreases |s|
  {
    if '.' in s {
      var k := IndexOf(s, '.');
      JoinSplitDot(s[k + 1..]);
      assert SplitDot(s)[1..] == SplitDot(s[k + 1..]);
      assert s == s[..k] + "." + s[k + 1..];
    }
  }

  /** Splitting a join of dot-free parts gives the parts back. */
  lemma {:induction false} SplitJoinDot(parts: seq<string>)
    requires |parts| >= 1
    requires forall i :: 0 <= i < |parts| ==> '.' !in parts[i]
    ensures SplitDot(JoinDot(parts)) == parts
    decreases |parts|
  {
    if |parts| > 1 {
      var s := JoinDot(parts);
      var rest := JoinDot(parts[1..]);
      assert s == parts[0] + "." + rest;
      assert s[|parts[0]|] == '.';
      assert s[..|parts[0]|] == parts[0];
      IndexOfFirst(s, '.', |parts[0]|);
      var k := IndexOf(s, '.');
      assert s[k + 1..] == rest;
      SplitJoinDot(parts[1..]);
    }
  }
}

=== FILE: tokens.dfy ===
/**
  The lexer's output as the REPL sees it. The Hy lexer itself is not part of
  this model: every operation takes its token list as an input value.
 */
module Tokens {

  /** The token names the REPL inspects; every other lexer token is `Other`. */
  datatype Kind =
    | LParen | RParen
    | LBracket | RBracket
    | LCurly | RCurly
    | Identifier
    | Other

  /** A token with its text, its 1-based column and its 0-based character
      offset into the text that was lexed. */
  datatype Token = Token(kind: Kind, value: string, colno: int, idx: nat)

  predicate IsOpener(k: Kind) {
    k == LParen || k == LBracket || k == LCurly
  }

  predicate IsCloser(k: Kind) {
    k == RParen || k == RBracket || k == RCurly
  }

  /** The 0-based column a token starts at, which is where a continuation
      line must start to sit directly under it. */
  function Col0(t: Token): int {
    t.colno - 1
  }

  /** The `value` of every token, in order. */
  function Values(ts: seq<Token>): (vs: seq<string>)
    ensures |vs| == |ts|
    ensures forall i :: 0 <= i < |ts| ==> vs[i] == ts[i].value
  {
    if ts == [] then [] else [ts[0].value] + Values(ts[1..])
  }
}
